=== FILE: README.md ===
# Plan recalculation engine of the restaurant-automation dashboard

This project models the part of the results dashboard that turns an
automation plan into figures. An automation plan is a list of equipment
lines, each with a name, a cost type (monthly rental or one-off purchase),
a unit cost and a quantity. The model covers four parts:

- **Category resolver** (`getCategoryFromDeviceName`). A free-text
  equipment name is mapped to a catalog category. The match tried first is
  the exact dropdown label `"{category} - {model}"`. Next comes the first
  catalog entry, in catalog order, whose model or maker occurs in the name.
  Last comes the first category that occurs in the name.
- **Recalculation** (`calculatedPlan`). It computes:
  - each line's monthly saving from the labour-saving rule of its category;
  - the one-off investment;
  - the monthly equipment cost, with purchases amortised over 36 months;
  - the net monthly gain;
  - the payback period, which is 999 when the investment can never be
    recovered;
  - the full-time and part-time headcount the plan saves.
- **List handlers.** These are remove, update (which re-prices a line when
  its cost type changes), add-or-replace by category, and the
  quantity-field coercion `parseInt(text) || 1`.
- **Chart figures.** These are the two bars of the cost-structure chart and
  the 25-point cumulative profit series.

The equipment catalog and the labour-saving rule table are the constants
`Constants.AvailableEquipment` and `Constants.LaborSavingEstimates`. The
engine functions take the catalog as a parameter (`Types.Catalog`). General
properties are therefore proved for any catalog, and facts about the
shipped catalog (`Constants.Shipped`) are proved separately in
`CatalogFacts`. Money is `real` in units of 10,000 KRW. JavaScript's
`Math.round` is modelled as `floor(x + 1/2)`, `toFixed(1)` as rounding to
the nearest tenth, and `String.prototype.includes` as a substring test.

Modules, one per file:

| module | file |
|---|---|
| `Types` | `types.dfy` |
| `Js` | `js.dfy` |
| `Constants` | `constants.dfy` |
| `Resolver` | `resolver.dfy` |
| `Recalc` | `recalc.dfy` |
| `Handlers` | `handlers.dfy` |
| `Charts` | `charts.dfy` |
| `CatalogFacts` | `catalog_facts.dfy` |
| `Findings` | `findings.dfy` |

## Model

| member | source | states |
|---|---|---|
| Js.IncludesIffOccurs | components/ResultDashboard.tsx:115 | `name.includes(t)` holds exactly when `t` occurs in `name` at some position |
| Js.Round | components/ResultDashboard.tsx:52 | `Math.round` gives a whole number within half a unit of its argument, with halves rounded up |
| Js.RoundTenth | components/ResultDashboard.tsx:78 | `parseFloat(x.toFixed(1))` is a multiple of 0.1 within 0.05 of `x` |
| Js.ParseIntOrOne | components/ResultDashboard.tsx:424 | `parseInt(text) \|\| 1` is never 0; it keeps a parsed non-zero value and gives 1 for NaN or 0 |
| Resolver.FindFirst | components/ResultDashboard.tsx:112 | `find` returns the first position satisfying the predicate, and none exactly when no element satisfies it |
| Resolver.Distinct | components/ResultDashboard.tsx:118 | `Array.from(new Set(xs))` has the same members as `xs` and no repeats |
| Resolver.CategoryColumn | components/ResultDashboard.tsx:118 | the category column lists each entry's category at the entry's position |
| Resolver.DistinctKeepsFirstMatch | components/ResultDashboard.tsx:118-121 | removing duplicates does not change which category is found first, or whether one is found at all |
| Resolver.ResolveIsOrderedFirstMatch | components/ResultDashboard.tsx:111-123 | the resolver uses the exact label first, then the first model/maker substring match in catalog order, then the first category substring; it returns nothing exactly when no step matches |
| Resolver.LabelMatchIsPartMatch | components/ResultDashboard.tsx:112-115 | a name equal to an entry's label also contains that entry's model |
| Resolver.ResolveGivesCatalogCategory | components/ResultDashboard.tsx:111-123 | every resolved category is the category of some catalog entry |
| Resolver.ResolveOwnLabel | components/ResultDashboard.tsx:112-113 | when labels are distinct, an entry's own label resolves to that entry's category |
| Resolver.DashAfterCategory | components/ResultDashboard.tsx:368 | labels whose categories differ in length cannot coincide when the longer category has no dash |
| Resolver.LabelInjective | components/ResultDashboard.tsx:368 | for dash-free categories, two labels are equal exactly when their categories and models are equal |
| Recalc.UnitCost | components/ResultDashboard.tsx:24-30 | the per-head cost times the headcount is the class total when the headcount is positive; otherwise the per-head cost is exactly 0, with no division |
| Recalc.ZeroHeadcountGuard | components/ResultDashboard.tsx:24-30 | with no headcount in the rule's class, a line saves nothing whatever its quantity |
| Recalc.RuleFor | components/ResultDashboard.tsx:43 | an unresolved name gets the fallback rule {0, PT} |
| Recalc.UnresolvedSavesNothing | components/ResultDashboard.tsx:42-57 | a line whose name does not resolve saves nothing and reduces no full-time headcount |
| Recalc.LineSaving | components/ResultDashboard.tsx:45-52 | each line's saving is rounded to a whole unit before it is summed |
| Recalc.ItemSaving | components/ResultDashboard.tsx:52 | a line's saving is a whole number |
| Recalc.RecalcDevices | components/ResultDashboard.tsx:40-60 | recalculation keeps length and order and every field except `monthly_saving`, which becomes the line's recomputed saving |
| Recalc.Recalculate | components/ResultDashboard.tsx:33-94 | the recalculated plan lists the input lines in order, each changed only in its saving |
| Recalc.RecalculateFigures | components/ResultDashboard.tsx:55-93 | the totals are: the sum of per-line savings; the rounded one-off investment; the rounded amortised equipment cost; the rounded net gain; the payback from the unrounded investment and net gain; and the FT/PT headcount sums |
| Recalc.RecalcKeepsCosts | components/ResultDashboard.tsx:62-70 | recalculation leaves investment and equipment cost unchanged |
| Recalc.RecalcKeepsReduced | components/ResultDashboard.tsx:56-57 | recalculation leaves the saved FT/PT headcounts unchanged |
| Recalc.TotalSavingIsWhole | components/ResultDashboard.tsx:52-55 | the total saving is a whole number, so rounding it again at :86 changes nothing |
| Recalc.RecalcAppend | components/ResultDashboard.tsx:40-60 | lines are recalculated independently, so recalculation distributes over concatenation |
| Recalc.TotalSavingOrderFree | components/ResultDashboard.tsx:55 | swapping two blocks of lines leaves the total saving unchanged |
| Recalc.TotalSavingAppend | components/ResultDashboard.tsx:40-55 | the total saving of two lists one after the other is the sum of their totals |
| Recalc.TotalSavingPermutationFree | components/ResultDashboard.tsx:40-55 | any two plans holding the same lines with the same multiplicities, in any order, have the same total saving |
| Recalc.RecalcFixpoint | components/ResultDashboard.tsx:40-60 | recalculating recalculated lines changes nothing, since the saving is never read as input |
| Recalc.RecalcIdempotent | components/ResultDashboard.tsx:33-94 | recalculating the recalculated plan yields the same plan |
| Recalc.SumOfSameCosts | components/ResultDashboard.tsx:62-70 | lines that differ only in saving have the same investment and equipment cost |
| Recalc.Payback | components/ResultDashboard.tsx:75-82 | payback is 0 without investment; 999 with investment and a non-positive unrounded net gain; otherwise a multiple of 0.1 within 0.05 of investment / net gain |
| Recalc.PaybackPositiveIff | components/ResultDashboard.tsx:75-82 | with investment and a positive net gain, payback is positive exactly when investment / net gain is at least 0.05 |
| Recalc.ReducedSplit | components/ResultDashboard.tsx:56-57 | reduced FT plus reduced PT is the total headcount fraction saved by all lines |
| Recalc.MoreUnitsNeverCheaper | components/ResultDashboard.tsx:62-70 | raising the quantity of a non-negative one-off line never lowers investment or equipment cost |
| Recalc.PredictedLabor | components/ResultDashboard.tsx:209 | predicted labour is never negative, and is either 0 or labour minus saving |
| Recalc.OutlookProfitGain | components/ResultDashboard.tsx:209-215 | when the labour total is the sum of the two classes, predicted minus current net profit is the saving (capped at the labour bill) minus the rounded equipment cost |
| Recalc.ShowPayback | components/ResultDashboard.tsx:238 | the payback card shows 불가 exactly for 999, and otherwise the months |
| Recalc.ShownImpossibleIff | components/ResultDashboard.tsx:75-82 | the card shows 불가 exactly when there is investment and either the net gain is not positive or investment / net gain rounds to 999.0 |
| Recalc.SentinelCollision | components/ResultDashboard.tsx:80 | an investment of 999 recovered at 1 a month is shown as 불가 |
| Handlers.SpliceStart | components/ResultDashboard.tsx:129 | `splice` counts a negative index from the end and clamps it to the list |
| Handlers.Remove | components/ResultDashboard.tsx:127-131 | removing a valid index deletes exactly that line and keeps the others in order (as a multiset, the result plus the removed line is the input); an index past the end changes nothing |
| Handlers.RemoveDropsItsSaving | components/ResultDashboard.tsx:127-131 | after a removal, the total saving drops by exactly the removed line's saving |
| Handlers.Update | components/ResultDashboard.tsx:133-154 | only the indexed line changes and it takes the patched fields; its cost is re-priced only when the cost type is given and differs and a catalog entry is found (rental price for monthly, purchase price for one-off); otherwise the cost is kept |
| Handlers.PriceSource | components/ResultDashboard.tsx:138-145 | a found price source is always a catalog entry |
| Handlers.PriceSourceIsOrderedFirstMatch | components/ResultDashboard.tsx:138-145 | the first entry matched by model or maker is the source, whether or not the name is an exact label; failing that, the first entry of the category the resolver finds, unless that category is empty; and there is no source exactly when both steps fail or the resolved category is empty |
| Handlers.PriceSourceSkipsLabel | components/ResultDashboard.tsx:138 | when a name is entry k's label but an earlier or equal entry j is the first model/maker match, the line is priced from j although it is read as k's category |
| Handlers.ToggleCostType | components/ResultDashboard.tsx:406 | the cost-type button always flips the line's cost type |
| Handlers.ToggleRepricesFromSource | components/ResultDashboard.tsx:137-149 | when a price source is found, the cost-type button prices the line at the source's price for the new type |
| Handlers.ToggleTwiceFromSource | components/ResultDashboard.tsx:137-149 | a monthly line with a price source is bought at the source's purchase price after one flip and rented at its rental price after two, whatever its earlier cost |
| Handlers.ToggleTwiceRestoresIff | components/ResultDashboard.tsx:137-149 | flipping twice restores the list exactly when no price source is found or the cost already is the source's price for its type |
| Handlers.SetCount | components/ResultDashboard.tsx:424 | the quantity field sets only the quantity, never to 0; NaN and 0 become 1 |
| Handlers.AddDevice | components/ResultDashboard.tsx:156-206 | adding is a no-op unless the selection is some entry's label, and adds at most one line |
| Handlers.AddReplacesFirstOfCategory | components/ResultDashboard.tsx:162-189 | when some line resolves to the selected category, the first such line is replaced in place by a monthly line at the rental price that keeps the old quantity |
| Handlers.AddAppendsWhenCategoryAbsent | components/ResultDashboard.tsx:191-202 | otherwise a monthly line of quantity 1 at the rental price is appended |
| Charts.OfTypeMembers | components/ChartSection.tsx:27-34 | the filter keeps every line of the given cost type as often as it occurs, and drops every other line |
| Charts.ChartEquipmentCostAgrees | components/ChartSection.tsx:27-36 | rental plus amortised cost in the chart is the same unrounded sum the dashboard computes |
| Charts.InitialInvestmentAgrees | components/ChartSection.tsx:66-68 | the chart's initial investment counts only one-off lines, the same as the dashboard's investment |
| Charts.CostStructure | components/ChartSection.tsx:38-59 | the current bar is today's labour and fixed cost with no equipment; the predicted bar is the clamped predicted labour, the same fixed cost and the equipment cost rounded to a whole unit; each total is the sum of its three parts |
| Charts.ChartTotalMatchesDashboard | components/ChartSection.tsx:39-42 | the chart's current and predicted totals equal the dashboard's figures |
| Charts.RoiPoints | components/ChartSection.tsx:70-76 | point i of the series is net × i − investment |
| Charts.RoiSeries | components/ChartSection.tsx:70-76 | the series has 25 points, and point 0 is −investment |
| Charts.RoiSeriesNondecreasingIff | components/ChartSection.tsx:73 | the series never falls exactly when the monthly net gain is not negative |
| CatalogFacts.PricesOrdered | constants.ts:12-45 | every entry's rental price is positive and below its purchase price |
| CatalogFacts.EveryCategoryHasRule | constants.ts:10-71 | every catalog category has a labour-saving rule |
| CatalogFacts.RuleTableShape | constants.ts:61-71 | every rule saves more than 0 and at most 0.5 heads; only 자동후라이어 and 자동볶음기 are FT |
| CatalogFacts.ModelsDistinct | constants.ts:12-45 | no two entries share a model |
| CatalogFacts.CategoriesDashFree | constants.ts:12-45 | no category contains a dash |
| CatalogFacts.LabelsDistinct | components/ResultDashboard.tsx:367-369 | the dropdown labels are pairwise distinct |
| CatalogFacts.LabelFindsItsEntry | components/ResultDashboard.tsx:159 | looking up an entry's label finds that very entry |
| CatalogFacts.SharedMaker | constants.ts:25-42 | 경일주방 makes fryers, stir-fryers and ultrasonic washers, and its first entry is a fryer |
| CatalogFacts.SharedMakerNamePartMatch | constants.ts:25-42 | a name starting with 경일주방 that avoids the initials of the first seven entries first matches the large fryer (entry 7) at the model/maker step |
| CatalogFacts.OwnLabelPartMatch | constants.ts:25-42 | the label of each stir-fryer and washer contains no model or maker of an earlier entry, so the entry itself is its first model/maker match |
| CatalogFacts.SharedMakerNameIsFryer | constants.ts:25-42 | a name starting with 경일주방 that avoids the initials of the first seven entries resolves to 자동후라이어 |
| Findings.SharedMakerRowIsFryer | components/ResultDashboard.tsx:179 | a "maker model" row name built from a 경일주방 item resolves to 자동후라이어 |
| Findings.AddedNameMisresolves | components/ResultDashboard.tsx:194 | the row name given to an added stir-fryer or washer resolves to 자동후라이어, not to the item's category |
| Findings.AddTwiceAppendsTwice | components/ResultDashboard.tsx:162-202 | when an added row's name resolves to another category, adding the item twice appends two lines |
| Findings.AddTwiceDuplicates | components/ResultDashboard.tsx:156-206 | adding the small stir-fryer twice to an empty plan yields two lines, both read as fryers |
| Findings.AddByLabel | components/ResultDashboard.tsx:178-202 | the corrected add also adds at most one line |
| Findings.AddByLabelRowResolves | components/ResultDashboard.tsx:178-202 | with distinct labels, the added or replacing line resolves to the selected category |
| Findings.AddByLabelKeepsOnePerCategory | components/ResultDashboard.tsx:162-202 | with distinct labels, the corrected add keeps at most one line per resolved category |
| Findings.AddByLabelTwiceAddsOnce | components/ResultDashboard.tsx:162-202 | with distinct labels, adding the same entry again replaces instead of appending |
| Findings.AddByLabelTwiceIntoEmpty | components/ResultDashboard.tsx:162-202 | adding an entry twice to an empty plan leaves one line, which resolves to its category |
| Findings.ShippedAddTwiceByLabel | components/ResultDashboard.tsx:156-206 | on the shipped catalog, the corrected add of the small stir-fryer twice leaves one line read as 자동볶음기 |
| Findings.SharedMakerRowPricedAsFryer | components/ResultDashboard.tsx:138 | a "maker model" row name built from a 경일주방 item is re-priced from the large fryer |
| Findings.AddedNamePricedAsFryer | components/ResultDashboard.tsx:138 | the row names given to added stir-fryers and washers are re-priced from the large fryer |
| Findings.AddedStirFryerRepricedAsFryer | components/ResultDashboard.tsx:137-149 | an added small stir-fryer switched to one-off costs 16000 instead of its 2000, and switched back rents at 399 instead of its 50 |
| Findings.LabelPricedByOwnEntry | components/ResultDashboard.tsx:138-145 | when an entry's label is first matched by the entry itself at the model/maker step, the search as written prices a line with that name from that entry |
| Findings.AddByLabelThenToggle | components/ResultDashboard.tsx:137-202 | with distinct labels, the line the label-named add makes for entry k is a monthly line; when k is the first model/maker match of its own label, switching it to one-off prices it at k's own purchase price, and switching back at k's own rental price |
| Findings.ShippedAddedByLabelRepricedOwn | components/ResultDashboard.tsx:137-202 | on the shipped catalog, stir-fryer and washer lines added under their label are re-priced from their own entries |
| Findings.ShippedStirFryerByLabelKeepsOwnPrice | components/ResultDashboard.tsx:137-202 | the small stir-fryer added under its label costs 2000 after switching to one-off and 50 after switching back |
| Findings.PriceSourceByLabel | components/ResultDashboard.tsx:138-145 | a price source that tries the exact label first always returns a catalog entry |
| Findings.PriceSourceByLabelDiffersOnlyOnEarlierPart | components/ResultDashboard.tsx:138 | the label-first source differs from the search as written only when the name is some entry's label and an earlier entry matches it by model or maker |
| Findings.LabelledLinePricedByOwnEntry | components/ResultDashboard.tsx:138-148 | with distinct labels, the label-first source prices a line named by its label from its own entry on any catalog, for either cost type |

## Left out

- The AI analysis service, the proxy worker, file reading, JSON parsing and the prompt texts. The plan is an arbitrary list of lines, and the baseline is an arbitrary `CurrentCost`.
- Only one fact is assumed about the baseline: the labour total equals the FT plus PT costs (`Types.LaborTotalConsistent`). It is used only where a lemma needs it.
- React state, JSX rendering, charts drawing, icons, `toLocaleString` formatting and the build configuration.
- IEEE-754 double arithmetic. Money and headcounts are exact reals. `toFixed(1)` is rounding to the nearest tenth with halves up for non-negative values, which does not reproduce binary-representation ties.
- Js.RoundTenth: matches `toFixed(1)` only for non-negative arguments. JavaScript rounds the magnitude of a negative number and restores the sign, so `(-0.25).toFixed(1)` is "-0.3" where the model gives -0.2. The only caller, the payback, passes a positive ratio.
- Recalc.Payback: does not promise a positive payback whenever investment and net gain are positive, because the code rounds a ratio below 0.05 to 0.0. `Recalc.PaybackPositiveIff` states exactly when it is positive.
- Handlers.Update: requires the index to be a line of the list. The dashboard only calls it with row indices. With an index outside the list, the cost-type comparison at components/ResultDashboard.tsx:137 would throw for a patch that sets the cost type, and for other patches the write at :152 would land outside the elements.
- Handlers.SetCount: quantities are mathematical integers. A negative typed quantity is kept as the code keeps it, and `min`/`max` on the input element are browser hints and are not modelled.
- Charts.OfType: its own ensures give only a length bound. How many copies of each line the filter keeps is stated by `Charts.OfTypeMembers`, because a quantified multiset ensures on `OfType` makes every proof that uses it too costly for the verifier.
- Handlers.AddDevice: its own ensures give only the no-op case and the length bounds. What it replaces or appends is stated by `Handlers.AddReplacesFirstOfCategory` and `Handlers.AddAppendsWhenCategoryAbsent`.
- Clearing the add dropdown after adding is UI state, and is not modelled.
- The provisional saving that add stores is modelled (`Handlers.CatalogRow`), but recalculation overwrites it at once.
- The 999 payback sentinel is a real value of the payback itself. `Recalc.ShownImpossibleIff` and `Recalc.SentinelCollision` record this rather than change it.

## Findings

| source | as written | input that shows it | evidently intended | confidence | as-written member | corrected member |
|---|---|---|---|---|---|---|
| components/ResultDashboard.tsx:179 | an added or replacing line is named `"{maker} {model}"`; for the 경일주방 stir-fryers and washers that name contains the maker of the first fryer entry, so it resolves to 자동후라이어 | select "자동볶음기 - 경일 자동볶음기 - 소형" twice on an empty plan: two lines are appended, both read as fryers and saved at the fryer's rule | adding an item whose category is already present replaces that line, so the plan keeps one line per category, and the new line is read as its own category | not executed | Findings.AddTwiceDuplicates | Findings.AddByLabelKeepsOnePerCategory |
| components/ResultDashboard.tsx:194 | an added line is named `"{maker} {model}"` (also at :179); for the 경일주방 stir-fryers and washers, the re-pricing search at :138 finds the large fryer's maker in that name before the item's own model | add "자동볶음기 - 경일 자동볶음기 - 소형", then switch it to one-off: it costs 16000 instead of 2000; switch it back: it rents at 399 instead of 50 | the added line is named by its dropdown label, as in `Findings.AddByLabel`; the search as written then prices it from its own entry | not executed | Findings.AddedStirFryerRepricedAsFryer | Findings.AddByLabelThenToggle |

=== FILE: catalog_facts.dfy ===
/** Facts about the shipped catalog and rule table. */
module CatalogFacts {

  import opened Types
  import opened Js
  import opened Constants
  import opened Resolver

  /** Every entry rents for less than it costs to buy, and both prices are positive. */
  lemma PricesOrdered()
    ensures forall i :: 0 <= i < |AvailableEquipment| ==>
      0.0 < AvailableEquipment[i].priceRental < AvailableEquipment[i].priceOneTime
  {
  }

  /** Every catalog category has a labour-saving rule. */
  lemma EveryCategoryHasRule()
    ensures forall i :: 0 <= i < |AvailableEquipment| ==> AvailableEquipment[i].category in LaborSavingEstimates
  {
  }

  /** Every rule saves between nothing (exclusive) and half a head (inclusive)
      per unit, and only the fryer and the stir-fryer save full-time staff. */
  lemma RuleTableShape()
    ensures forall c :: c in LaborSavingEstimates ==> 0.0 < LaborSavingEstimates[c].amount <= 0.5
    ensures forall c :: c in LaborSavingEstimates ==>
      (LaborSavingEstimates[c].kind == FT <==> c == "자동후라이어" || c == "자동볶음기")
  {
  }

  /** No two entries share a model. */
  lemma ModelsDistinct()
    ensures forall i, j :: 0 <= i < j < |AvailableEquipment| ==>
      AvailableEquipment[i].model != AvailableEquipment[j].model
  {
  }

  /** No category contains a dash, so a label splits back into category and model. */
  lemma CategoriesDashFree()
    ensures forall i :: 0 <= i < |AvailableEquipment| ==> '-' !in AvailableEquipment[i].category
  {
  }

  /** The dropdown labels are pairwise distinct, so looking an entry up by
      its label finds that entry. */
  lemma LabelsDistinct()
    ensures forall i, j :: 0 <= i < j < |AvailableEquipment| ==>
      Label(AvailableEquipment[i]) != Label(AvailableEquipment[j])
  {
    CategoriesDashFree();
    ModelsDistinct();
    forall i, j | 0 <= i < j < |AvailableEquipment|
      ensures Label(AvailableEquipment[i]) != Label(AvailableEquipment[j])
    {
      LabelInjective(AvailableEquipment[i], AvailableEquipment[j]);
    }
  }

  /** Selecting an entry's label finds that very entry. */
  lemma LabelFindsItsEntry(k: nat)
    requires k < |AvailableEquipment|
    ensures FirstAt(AvailableEquipment, Label(AvailableEquipment[k]), ByLabel, k)
  {
    LabelsDistinct();
  }

  /** The maker 경일주방 makes fryers, stir-fryers and ultrasonic washers, and
      its first entry is a fryer. */
  lemma SharedMaker()
    ensures forall i :: 0 <= i < |AvailableEquipment| && AvailableEquipment[i].maker == "경일주방" ==>
      AvailableEquipment[i].category in {"자동후라이어", "자동볶음기", "초음파세척기"}
    ensures AvailableEquipment[7].maker == "경일주방" && AvailableEquipment[7].category == "자동후라이어"
    ensures AvailableEquipment[9].maker == "경일주방" && AvailableEquipment[9].category == "자동볶음기"
    ensures AvailableEquipment[15].maker == "경일주방" && AvailableEquipment[15].category == "초음파세척기"
    ensures forall i :: 0 <= i < 7 ==> AvailableEquipment[i].maker != "경일주방"
  {
  }

  /** No category starts with 경. */
  lemma NoCategoryStartsWithGyeong()
    ensures forall i :: 0 <= i < |AvailableEquipment| ==>
      |AvailableEquipment[i].category| > 0 && AvailableEquipment[i].category[0] != '경'
  {
  }

  /** The models and makers of the first seven entries start with one of these characters. */
  const EarlyInitials: string := "푸서K페아베로삼"

  lemma EarlyEntriesInitials()
    ensures forall i :: 0 <= i < 7 ==>
      && |AvailableEquipment[i].model| > 0 && AvailableEquipment[i].model[0] in EarlyInitials
      && |AvailableEquipment[i].maker| > 0 && AvailableEquipment[i].maker[0] in EarlyInitials
  {
  }

  /** No label equals a name that starts with 경. */
  lemma NoLabelStartsWithGyeong(name: string)
    requires |name| > 0 && name[0] == '경'
    ensures NoneAt(AvailableEquipment, name, ByLabel)
  {
    NoCategoryStartsWithGyeong();
    forall i | 0 <= i < |AvailableEquipment|
      ensures !Matches(ByLabel, name, AvailableEquipment[i])
    {
      assert Label(AvailableEquipment[i])[0] == AvailableEquipment[i].category[0];
    }
  }

  /** A name free of the initials of the first seven entries matches none of them by part. */
  lemma NoEarlyPartMatch(name: string)
    requires forall c :: c in name ==> c !in EarlyInitials
    ensures forall i :: 0 <= i < 7 ==> !Matches(ByPart, name, AvailableEquipment[i])
  {
    EarlyEntriesInitials();
    forall i | 0 <= i < 7
      ensures !Matches(ByPart, name, AvailableEquipment[i])
    {
      MissingFirstChar(name, AvailableEquipment[i].model);
      MissingFirstChar(name, AvailableEquipment[i].maker);
    }
  }

  /** A name that starts with 경일주방 and avoids the initials of the first
      seven entries matches the large fryer first at the model/maker step. */
  lemma SharedMakerNamePartMatch(name: string)
    requires |name| >= 4 && name[..4] == "경일주방"
    requires forall c :: c in name ==> c !in EarlyInitials
    ensures FindFirst(AvailableEquipment, e => Matches(ByPart, name, e)) == Some(7)
  {
    NoEarlyPartMatch(name);
    assert name[..4] == AvailableEquipment[7].maker;
    assert Matches(ByPart, name, AvailableEquipment[7]);
    FindFirstAt(AvailableEquipment, e => Matches(ByPart, name, e), 7);
  }

  /** A name that starts with 경일주방 and avoids the initials of the first
      seven entries resolves to 자동후라이어: no label starts with 경, nothing
      before the first 경일주방 entry matches, and that entry is a fryer. */
  lemma SharedMakerNameIsFryer(name: string)
    requires |name| >= 4 && name[..4] == "경일주방"
    requires forall c :: c in name ==> c !in EarlyInitials
    ensures Resolve(AvailableEquipment, name) == Some("자동후라이어")
  {
    NoLabelStartsWithGyeong(name);
    NoEarlyPartMatch(name);
    assert name[..4] == AvailableEquipment[7].maker;
    assert Matches(ByPart, name, AvailableEquipment[7]);
    FindFirstAt(AvailableEquipment, e => Matches(ByPart, name, e), 7);
  }

  /** A name free of the initials of the first seven entries that includes
      entry `k`'s model, while no entry from 7 up to `k` matches it, is first
      matched by `k` at the model/maker step. */
  lemma PartMatchFrom7(name: string, k: nat)
    requires 7 <= k < |AvailableEquipment|
    requires forall c :: c in name ==> c !in EarlyInitials
    requires Includes(name, AvailableEquipment[k].model)
    requires forall j :: 7 <= j < k ==> !Matches(ByPart, name, AvailableEquipment[j])
    ensures FirstAt(AvailableEquipment, name, ByPart, k)
  {
    NoEarlyPartMatch(name);
  }

  /** A name with neither 후 nor 주 is matched by neither fryer. */
  lemma AvoidsFryers(name: string)
    requires '후' !in name && '주' !in name
    ensures forall j :: 7 <= j < 9 ==> !Matches(ByPart, name, AvailableEquipment[j])
  {
    var eq := AvailableEquipment;
    assert eq[7].model[3] == '후' && eq[8].model[3] == '후' && eq[7].maker[2] == '주';
    MissingChar(name, eq[7].model, 3);
    MissingChar(name, eq[8].model, 3);
    MissingChar(name, eq[7].maker, 2);
  }

  /** The models and makers of entries 7 to 14 start with one of these characters. */
  const MiddleInitials: string := "경가클푸맥히"

  /** A name free of the initials of entries 7 to 14 is matched by none of them. */
  lemma AvoidsMiddle(name: string)
    requires forall c :: c in MiddleInitials ==> c !in name
    ensures forall j :: 7 <= j < 15 ==> !Matches(ByPart, name, AvailableEquipment[j])
  {
    forall j | 7 <= j < 15
      ensures !Matches(ByPart, name, AvailableEquipment[j])
    {
      assert AvailableEquipment[j].model[0] in MiddleInitials;
      assert AvailableEquipment[j].maker[0] in MiddleInitials;
      MissingFirstChar(name, AvailableEquipment[j].model);
      MissingFirstChar(name, AvailableEquipment[j].maker);
    }
  }

  /** The dropdown labels of the stir-fryers and washers. */
  const SmallStirFryerLabel: string := "자동볶음기 - 경일 자동볶음기 - 소형"
  const MediumStirFryerLabel: string := "자동볶음기 - 경일 자동볶음기 - 중형"
  const ModularWasherLabel: string := "초음파세척기 - 초음파세척 모듈형"
  const MediumWasherLabel: string := "초음파세척기 - 초음파세척 중형"

  lemma StirFryerLabelTexts()
    ensures Label(AvailableEquipment[9]) == SmallStirFryerLabel
    ensures Label(AvailableEquipment[10]) == MediumStirFryerLabel
  {
    SmallStirFryerLabelText();
  }

  lemma SmallStirFryerLabelText()
    ensures Label(AvailableEquipment[9]) == SmallStirFryerLabel
  {
  }

  lemma WasherLabelTexts()
    ensures Label(AvailableEquipment[15]) == ModularWasherLabel
    ensures Label(AvailableEquipment[16]) == MediumWasherLabel
  {
  }

  /** The characters the four labels lack. */
  lemma StirFryerTextChars()
    ensures '후' !in SmallStirFryerLabel && '주' !in SmallStirFryerLabel
    ensures forall c :: c in SmallStirFryerLabel ==> c !in EarlyInitials
    ensures '후' !in MediumStirFryerLabel && '주' !in MediumStirFryerLabel && '소' !in MediumStirFryerLabel
    ensures forall c :: c in MediumStirFryerLabel ==> c !in EarlyInitials
  {
  }

  lemma WasherTextChars()
    ensures forall c :: c in MiddleInitials ==> c !in ModularWasherLabel
    ensures forall c :: c in ModularWasherLabel ==> c !in EarlyInitials
    ensures forall c :: c in MiddleInitials ==> c !in MediumWasherLabel
    ensures '모' !in MediumWasherLabel
    ensures forall c :: c in MediumWasherLabel ==> c !in EarlyInitials
  {
  }

  lemma SmallStirFryerLabelChars()
    ensures '후' !in Label(AvailableEquipment[9]) && '주' !in Label(AvailableEquipment[9])
    ensures forall c :: c in Label(AvailableEquipment[9]) ==> c !in EarlyInitials
  {
    StirFryerLabelTexts();
    StirFryerTextChars();
  }

  lemma MediumStirFryerLabelChars()
    ensures '후' !in Label(AvailableEquipment[10]) && '주' !in Label(AvailableEquipment[10])
    ensures '소' !in Label(AvailableEquipment[10])
    ensures forall c :: c in Label(AvailableEquipment[10]) ==> c !in EarlyInitials
  {
    StirFryerLabelTexts();
    StirFryerTextChars();
  }

  lemma ModularWasherLabelChars()
    ensures forall c :: c in MiddleInitials ==> c !in Label(AvailableEquipment[15])
    ensures forall c :: c in Label(AvailableEquipment[15]) ==> c !in EarlyInitials
  {
    WasherLabelTexts();
    WasherTextChars();
  }

  lemma MediumWasherLabelChars()
    ensures forall c :: c in MiddleInitials ==> c !in Label(AvailableEquipment[16])
    ensures '모' !in Label(AvailableEquipment[16])
    ensures forall c :: c in Label(AvailableEquipment[16]) ==> c !in EarlyInitials
  {
    WasherLabelTexts();
    WasherTextChars();
  }

  /** Each label includes its own model. */
  lemma LabelIncludesModel(e: EquipmentDef)
    ensures Includes(Label(e), e.model)
  {
    IncludesSuffix(e.category + " - ", e.model);
  }

  /** Each of the four labels below is first matched by its own entry at the
      model/maker step. */
  lemma SmallStirFryerLabelPartMatch()
    ensures FirstAt(AvailableEquipment, Label(AvailableEquipment[9]), ByPart, 9)
  {
    SmallStirFryerLabelChars();
    AvoidsFryers(Label(AvailableEquipment[9]));
    LabelIncludesModel(AvailableEquipment[9]);
    PartMatchFrom7(Label(AvailableEquipment[9]), 9);
  }

  lemma MediumStirFryerLabelPartMatch()
    ensures FirstAt(AvailableEquipment, Label(AvailableEquipment[10]), ByPart, 10)
  {
    var name := Label(AvailableEquipment[10]);
    MediumStirFryerLabelChars();
    AvoidsFryers(name);
    assert AvailableEquipment[9].model[11] == '소' && AvailableEquipment[9].maker == AvailableEquipment[7].maker;
    MissingChar(name, AvailableEquipment[9].model, 11);
    LabelIncludesModel(AvailableEquipment[10]);
    PartMatchFrom7(name, 10);
  }

  lemma ModularWasherLabelPartMatch()
    ensures FirstAt(AvailableEquipment, Label(AvailableEquipment[15]), ByPart, 15)
  {
    ModularWasherLabelChars();
    AvoidsMiddle(Label(AvailableEquipment[15]));
    LabelIncludesModel(AvailableEquipment[15]);
    PartMatchFrom7(Label(AvailableEquipment[15]), 15);
  }

  lemma MediumWasherLabelPartMatch()
    ensures FirstAt(AvailableEquipment, Label(AvailableEquipment[16]), ByPart, 16)
  {
    var name := Label(AvailableEquipment[16]);
    MediumWasherLabelChars();
    AvoidsMiddle(name);
    assert AvailableEquipment[15].model[6] == '모' && AvailableEquipment[15].maker[0] in MiddleInitials;
    MissingChar(name, AvailableEquipment[15].model, 6);
    MissingFirstChar(name, AvailableEquipment[15].maker);
    LabelIncludesModel(AvailableEquipment[16]);
    PartMatchFrom7(name, 16);
  }

  /** The label of each stir-fryer and washer is matched first, at the
      model/maker step, by the entry itself: no earlier model or maker
      occurs in it. */
  lemma OwnLabelPartMatch(k: nat)
    requires k == 9 || k == 10 || k == 15 || k == 16
    ensures FirstAt(AvailableEquipment, Label(AvailableEquipment[k]), ByPart, k)
  {
    if k == 9 {
      SmallStirFryerLabelPartMatch();
    } else if k == 10 {
      MediumStirFryerLabelPartMatch();
    } else if k == 15 {
      ModularWasherLabelPartMatch();
    } else {
      MediumWasherLabelPartMatch();
    }
  }
}

=== FILE: charts.dfy ===
/** The chart section: the cost-structure comparison and the cumulative ROI
    series, both read from the plan the dashboard hands over. */
module Charts {

  import opened Types
  import opened Js
  import opened Recalc

  /** `.filter(d => d.cost_type === t)`. */
  function OfType(devs: seq<Device>, t: CostType): (r: seq<Device>)
    ensures |r| <= |devs|
  {
    if |devs| == 0 then []
    else if devs[0].costType == t then [devs[0]] + OfType(devs[1..], t)
    else OfType(devs[1..], t)
  }

  /** The filter keeps exactly the lines of the given cost type, each as
      often as it occurs, and drops every other line. */
  lemma {:induction false} OfTypeMembers(devs: seq<Device>, t: CostType)
    ensures forall d :: multiset(OfType(devs, t))[d] == if d.costType == t then multiset(devs)[d] else 0
    ensures forall d :: d in OfType(devs, t) <==> d in devs && d.costType == t
  {
    if |devs| > 0 {
      OfTypeMembers(devs[1..], t);
      assert devs == [devs[0]] + devs[1..];
    }
  }

  /** `.reduce((sum, d) => sum + d.cost * d.count, 0)`. */
  function LineTotal(devs: seq<Device>): real {
    if |devs| == 0 then 0.0 else devs[0].cost * devs[0].count as real + LineTotal(devs[1..])
  }

  /** `.reduce((sum, d) => sum + (d.cost * d.count) / 36, 0)`. */
  function AmortisedTotal(devs: seq<Device>): real {
    if |devs| == 0 then 0.0
    else devs[0].cost * devs[0].count as real / AmortisationMonths + AmortisedTotal(devs[1..])
  }

  /** `totalMonthlyEquipmentCost` of the chart: rental fees plus amortised purchases. */
  function MonthlyEquipmentCost(devs: seq<Device>): real {
    LineTotal(OfType(devs, Monthly)) + AmortisedTotal(OfType(devs, OneTime))
  }

  /** `initialInvestment`: purchase prices times quantities of one-off lines. */
  function InitialInvestment(devs: seq<Device>): real {
    LineTotal(OfType(devs, OneTime))
  }

  /** The chart's equipment cost, computed by filtering, is the same unrounded
      figure the dashboard accumulates line by line. */
  lemma {:induction false} ChartEquipmentCostAgrees(devs: seq<Device>)
    ensures MonthlyEquipmentCost(devs) == SumOf(devs, ItemEquipmentCost)
  {
    if |devs| > 0 {
      ChartEquipmentCostAgrees(devs[1..]);
      var d, rest := devs[0], devs[1..];
      assert ([d] + OfType(rest, d.costType))[1..] == OfType(rest, d.costType);
      if d.costType == Monthly {
        assert LineTotal(OfType(devs, Monthly)) == d.cost * d.count as real + LineTotal(OfType(rest, Monthly));
        assert AmortisedTotal(OfType(devs, OneTime)) == AmortisedTotal(OfType(rest, OneTime));
      } else {
        assert LineTotal(OfType(devs, Monthly)) == LineTotal(OfType(rest, Monthly));
        assert AmortisedTotal(OfType(devs, OneTime)) ==
          d.cost * d.count as real / AmortisationMonths + AmortisedTotal(OfType(rest, OneTime));
      }
    }
  }

  /** The chart's initial investment is the dashboard's unrounded investment:
      rental lines contribute nothing. */
  lemma {:induction false} InitialInvestmentAgrees(devs: seq<Device>)
    ensures InitialInvestment(devs) == SumOf(devs, ItemInvestment)
  {
    if |devs| > 0 {
      InitialInvestmentAgrees(devs[1..]);
      assert ([devs[0]] + OfType(devs[1..], OneTime))[1..] == OfType(devs[1..], OneTime);
    }
  }

  /** One bar of the cost-structure chart. */
  datatype CostBar = CostBar(labor: real, fixed: real, equipment: real, total: real)

  /** `costData`: the current bar carries no equipment cost; the predicted bar
      carries the predicted labour and the equipment cost rounded to a whole unit. */
  function CostStructure(cc: CurrentCost, plan: Plan): (bars: (CostBar, CostBar))
    ensures bars.0.total == bars.0.labor + bars.0.fixed + bars.0.equipment
    ensures bars.1.total == bars.1.labor + bars.1.fixed + bars.1.equipment
    ensures bars.0.equipment == 0.0 && bars.1.labor >= 0.0
    ensures bars.0.fixed == bars.1.fixed == cc.monthlyFixedCost
    ensures bars.0.labor == cc.monthlyLaborCost
    ensures bars.1.labor == PredictedLabor(cc, plan.totalMonthlySaving)
    ensures bars.1.equipment == Round(MonthlyEquipmentCost(plan.devices))
  {
    var equipment := Round(MonthlyEquipmentCost(plan.devices));
    var labor := PredictedLabor(cc, plan.totalMonthlySaving);
    (CostBar(cc.monthlyLaborCost, cc.monthlyFixedCost, 0.0, cc.monthlyLaborCost + cc.monthlyFixedCost),
     CostBar(labor, cc.monthlyFixedCost, equipment, labor + cc.monthlyFixedCost + equipment))
  }

  /** Months shown by the cumulative profit chart: 0 through 24. */
  const HorizonMonths: nat := 24

  /** The first `n` points of the cumulative profit series, as the loop pushes them. */
  function RoiPoints(net: real, investment: real, n: nat): (pts: seq<real>)
    ensures |pts| == n
    ensures forall i :: 0 <= i < n ==> pts[i] == net * i as real - investment
  {
    if n == 0 then [] else RoiPoints(net, investment, n - 1) + [net * (n - 1) as real - investment]
  }

  /** `roiData`: cumulative profit after i months for i = 0..24, from the
      plan's rounded monthly net gain and the one-off investment. */
  function RoiSeries(plan: Plan): (pts: seq<real>)
    ensures |pts| == HorizonMonths + 1
    ensures pts[0] == -InitialInvestment(plan.devices)
  {
    RoiPoints(plan.netProfitIncrease, InitialInvestment(plan.devices), HorizonMonths + 1)
  }

  /** Each point is at least the one before. */
  ghost predicate Nondecreasing(pts: seq<real>) {
    forall i :: 0 < i < |pts| ==> pts[i - 1] <= pts[i]
  }

  /** The series is a straight line in the month, so it never falls exactly
      when the monthly net gain is not negative. */
  lemma RoiSeriesNondecreasingIff(plan: Plan)
    ensures Nondecreasing(RoiSeries(plan)) <==> plan.netProfitIncrease >= 0.0
  {
    var pts := RoiSeries(plan);
    if plan.netProfitIncrease < 0.0 {
      assert pts[1] - pts[0] == plan.netProfitIncrease;
    } else {
      forall i | 0 < i < |pts|
        ensures pts[i - 1] <= pts[i]
      {
        assert pts[i] - pts[i - 1] == plan.netProfitIncrease;
      }
    }
  }

  /** The predicted total of the chart is the dashboard's predicted total cost:
      both use the same clamped labour figure and the same rounded equipment cost. */
  lemma ChartTotalMatchesDashboard(cat: Catalog, cc: CurrentCost, devs: seq<Device>)
    ensures var plan := Recalculate(cat, cc, devs);
      CostStructure(cc, plan).1.total == DashboardOutlook(cc, plan).predictedTotalCost
      && CostStructure(cc, plan).0.total == DashboardOutlook(cc, plan).currentTotalCost
  {
    var plan := Recalculate(cat, cc, devs);
    RecalculateFigures(cat, cc, devs);
    ChartEquipmentCostAgrees(plan.devices);
    SumOfSameCosts(plan.devices, devs);
  }
}

=== FILE: constants.dfy ===
/** The static reference data of `constants.ts`: the equipment catalog in its
    declared order and the labour-saving rule per category. */
module Constants {

  import opened Types

  const AvailableEquipment: seq<EquipmentDef> := [
    EquipmentDef("서빙로봇", "푸두봇", "푸두봇", 1600.0, 30.0),
    EquipmentDef("서빙로봇", "베어로보틱스", "서비(Servi)", 2200.0, 45.0),
    EquipmentDef("서빙로봇", "로보와이드", "서브봇 S1", 1300.0, 19.0),
    EquipmentDef("테이블오더", "KT", "KT오더", 200.0, 3.0),
    EquipmentDef("테이블오더", "페이히어", "페이히어오더", 160.0, 2.0),
    EquipmentDef("키오스크", "아임유", "KIOSK T-series", 200.0, 2.5),
    EquipmentDef("키오스크", "삼성전자", "KM24A 키오스크", 230.0, 2.7),
    EquipmentDef("자동후라이어", "경일주방", "경일 후라이어 - 대형", 16000.0, 399.0),
    EquipmentDef("자동후라이어", "경일주방", "경일 후라이어 - 소형", 2000.0, 50.0),
    EquipmentDef("자동볶음기", "경일주방", "경일 자동볶음기 - 소형", 2000.0, 50.0),
    EquipmentDef("자동볶음기", "경일주방", "경일 자동볶음기 - 중형", 4000.0, 100.0),
    EquipmentDef("청소로봇", "가우시움", "가우시움 (청소봇)", 2000.0, 50.0),
    EquipmentDef("청소로봇", "클린테크", "클린테크 (청소봇)", 3000.0, 60.0),
    EquipmentDef("청소로봇", "푸두청소봇", "푸두청소봇 (청소봇)", 1500.0, 40.0),
    EquipmentDef("맥주자동디스펜서", "히오자키", "맥주자동디스펜서 4구", 1400.0, 35.0),
    EquipmentDef("초음파세척기", "경일주방", "초음파세척 모듈형", 1500.0, 38.0),
    EquipmentDef("초음파세척기", "경일주방", "초음파세척 중형", 3200.0, 180.0),
    EquipmentDef("커피 자동화로봇", "Teatime", "Teatime-1", 3500.0, 85.0)
  ]

  const LaborSavingEstimates: map<string, LaborRule> := map[
    "서빙로봇" := LaborRule(0.4, PT),
    "테이블오더" := LaborRule(0.2, PT),
    "키오스크" := LaborRule(0.3, PT),
    "자동후라이어" := LaborRule(0.5, FT),
    "자동볶음기" := LaborRule(0.4, FT),
    "청소로봇" := LaborRule(0.3, PT),
    "초음파세척기" := LaborRule(0.3, PT),
    "맥주자동디스펜서" := LaborRule(0.4, PT),
    "커피 자동화로봇" := LaborRule(0.5, PT)
  ]

  const Shipped: Catalog := Catalog(AvailableEquipment, LaborSavingEstimates)
}

=== FILE: findings.dfy ===
/** Adding a catalog item by its dropdown label: the row name the dashboard
    gives the new line does not always resolve back to the selected
    category, so a second add of the same item appends instead of
    replacing, and switching its cost type prices it from another entry. A
    line named by its label always resolves back, adding then keeps at most
    one line per category, and switching its cost type prices it from its
    own entry. */
module Findings {

  import opened Types
  import opened Constants
  import opened Resolver
  import opened Recalc
  import opened Handlers
  import opened CatalogFacts

  /** No two lines resolve to the same category. */
  ghost predicate OnePerCategory(eq: seq<EquipmentDef>, devs: seq<Device>) {
    forall i, j :: 0 <= i < j < |devs| && Resolve(eq, devs[i].name).Some? ==>
      Resolve(eq, devs[i].name) != Resolve(eq, devs[j].name)
  }

  // ---------------------------------------------------------------------
  // As written: rows are named "{maker} {model}"
  // ---------------------------------------------------------------------

  /** A line named after a 경일주방 item whose model avoids the initials of
      the first seven entries resolves to 자동후라이어. */
  lemma SharedMakerRowIsFryer(def: EquipmentDef)
    requires def.maker == "경일주방"
    requires forall c :: c in def.model ==> c !in EarlyInitials
    ensures Resolve(AvailableEquipment, AddedName(def)) == Some("자동후라이어")
  {
    var name := AddedName(def);
    assert name == def.maker + (" " + def.model);
    assert name[..4] == "경일주방";
    forall c | c in name
      ensures c !in EarlyInitials
    {
      if c !in def.model {
        assert c in "경일주방 ";
      }
    }
    SharedMakerNameIsFryer(name);
  }

  /** The stir-fryers and ultrasonic washers share the maker 경일주방 with the
      fryers, which come first in the catalog: the name an added stir-fryer
      or washer line gets resolves to 자동후라이어, not to its own category. */
  lemma AddedNameMisresolves(k: nat)
    requires k == 9 || k == 10 || k == 15 || k == 16
    ensures Resolve(AvailableEquipment, AddedName(AvailableEquipment[k])) == Some("자동후라이어")
    ensures AvailableEquipment[k].category != "자동후라이어"
  {
    var model := AvailableEquipment[k].model;
    forall i | 0 <= i < |model|
      ensures model[i] !in EarlyInitials
    {
    }
    SharedMakerRowIsFryer(AvailableEquipment[k]);
  }

  /** Whenever the name given to entry `k`'s line resolves to some other
      category, adding that entry twice to an empty plan appends two lines
      of that name, and the plan no longer has one line per category. */
  lemma AddTwiceAppendsTwice(cat: Catalog, cc: CurrentCost, selected: string,
                             rowName: EquipmentDef -> string, k: nat)
    requires FirstAt(cat.equipment, selected, ByLabel, k)
    requires Resolve(cat.equipment, rowName(cat.equipment[k])).Some?
    requires Resolve(cat.equipment, rowName(cat.equipment[k])) != Some(cat.equipment[k].category)
    ensures var r := AddNamed(cat, cc, AddNamed(cat, cc, [], selected, rowName), selected, rowName);
      && |r| == 2
      && r[0].name == rowName(cat.equipment[k]) && r[1].name == rowName(cat.equipment[k])
      && !OnePerCategory(cat.equipment, r)
  {
    AddAppendsWhenCategoryAbsent(cat, cc, [], selected, rowName, k);
    var r1 := AddNamed(cat, cc, [], selected, rowName);
    assert !InCategory(cat.equipment, cat.equipment[k].category, r1[0]);
    AddAppendsWhenCategoryAbsent(cat, cc, r1, selected, rowName, k);
  }

  /** Adding the small stir-fryer twice to an empty plan yields two lines,
      both of which the resolver reads as fryers: the second add appends
      instead of replacing, and the plan no longer has one line per category. */
  lemma AddTwiceDuplicates(cc: CurrentCost, selected: string)
    requires selected == Label(AvailableEquipment[9])
    ensures var r := AddDevice(Shipped, cc, AddDevice(Shipped, cc, [], selected), selected);
      && |r| == 2
      && Resolve(AvailableEquipment, r[0].name) == Some("자동후라이어")
      && Resolve(AvailableEquipment, r[1].name) == Some("자동후라이어")
      && !OnePerCategory(AvailableEquipment, r)
  {
    LabelFindsItsEntry(9);
    AddedNameMisresolves(9);
    AddTwiceAppendsTwice(Shipped, cc, selected, AddedName, 9);
  }

  // ---------------------------------------------------------------------
  // Corrected: rows are named by their dropdown label
  // ---------------------------------------------------------------------

  /** `handleAddDevice` with the new or replacing line named by the selected
      entry's label, which the resolver maps back to that entry. */
  function AddByLabel(cat: Catalog, cc: CurrentCost, devs: seq<Device>, selected: string): (r: seq<Device>)
    ensures |devs| <= |r| <= |devs| + 1
  {
    AddNamed(cat, cc, devs, selected, Label)
  }

  /** With distinct labels, the line added or replaced for entry `k` carries
      its label and resolves to its category. */
  lemma AddByLabelRowResolves(cat: Catalog, cc: CurrentCost, devs: seq<Device>, k: nat)
    requires k < |cat.equipment|
    requires forall i, j :: 0 <= i < j < |cat.equipment| ==> Label(cat.equipment[i]) != Label(cat.equipment[j])
    ensures var r := AddByLabel(cat, cc, devs, Label(cat.equipment[k]));
      exists i :: 0 <= i < |r| && r[i].name == Label(cat.equipment[k])
                  && Resolve(cat.equipment, r[i].name) == Some(cat.equipment[k].category)
  {
    var sel := Label(cat.equipment[k]);
    var c := cat.equipment[k].category;
    ResolveOwnLabel(cat.equipment, k);
    assert FirstAt(cat.equipment, sel, ByLabel, k);
    match FindFirst(devs, d => InCategory(cat.equipment, c, d))
    case Some(i) =>
      AddReplacesFirstOfCategory(cat, cc, devs, sel, Label, k, i);
      assert AddByLabel(cat, cc, devs, sel)[i].name == sel;
    case None =>
      AddAppendsWhenCategoryAbsent(cat, cc, devs, sel, Label, k);
      assert AddByLabel(cat, cc, devs, sel)[|devs|].name == sel;
  }

  /** With distinct labels, adding keeps a plan with one line per category
      a plan with one line per category. */
  lemma AddByLabelKeepsOnePerCategory(cat: Catalog, cc: CurrentCost, devs: seq<Device>, selected: string)
    requires forall i, j :: 0 <= i < j < |cat.equipment| ==> Label(cat.equipment[i]) != Label(cat.equipment[j])
    requires OnePerCategory(cat.equipment, devs)
    ensures OnePerCategory(cat.equipment, AddByLabel(cat, cc, devs, selected))
  {
    var eq := cat.equipment;
    var r := AddByLabel(cat, cc, devs, selected);
    if selected != "" {
      match FindFirst(eq, e => Matches(ByLabel, selected, e))
      case None =>
      case Some(k) =>
        var c := eq[k].category;
        ResolveOwnLabel(eq, k);
        match FindFirst(devs, d => InCategory(eq, c, d))
        case Some(i) =>
          AddReplacesFirstOfCategory(cat, cc, devs, selected, Label, k, i);
          forall j | 0 <= j < |r|
            ensures Resolve(eq, r[j].name) == Resolve(eq, devs[j].name)
          {
          }
        case None =>
          AddAppendsWhenCategoryAbsent(cat, cc, devs, selected, Label, k);
          forall j | 0 <= j < |devs|
            ensures Resolve(eq, r[j].name) == Resolve(eq, devs[j].name)
                 && Resolve(eq, devs[j].name) != Some(c)
          {
          }
    }
  }

  /** With distinct labels, adding the same entry a second time replaces the
      line the first add made rather than appending another. */
  lemma AddByLabelTwiceAddsOnce(cat: Catalog, cc: CurrentCost, devs: seq<Device>, selected: string)
    requires forall i, j :: 0 <= i < j < |cat.equipment| ==> Label(cat.equipment[i]) != Label(cat.equipment[j])
    ensures |AddByLabel(cat, cc, AddByLabel(cat, cc, devs, selected), selected)| == |AddByLabel(cat, cc, devs, selected)|
  {
    var eq := cat.equipment;
    if selected != "" {
      match FindFirst(eq, e => Matches(ByLabel, selected, e))
      case None =>
      case Some(k) =>
        var r1 := AddByLabel(cat, cc, devs, selected);
        AddByLabelRowResolves(cat, cc, devs, k);
        var i :| 0 <= i < |r1| && r1[i].name == Label(eq[k]) && Resolve(eq, r1[i].name) == Some(eq[k].category);
        assert FindFirst(r1, d => InCategory(eq, eq[k].category, d)).Some?;
    }
  }

  /** With distinct labels, adding entry `k` twice to an empty plan leaves
      one line, which resolves to `k`'s category. */
  lemma AddByLabelTwiceIntoEmpty(cat: Catalog, cc: CurrentCost, k: nat)
    requires k < |cat.equipment|
    requires forall i, j :: 0 <= i < j < |cat.equipment| ==> Label(cat.equipment[i]) != Label(cat.equipment[j])
    ensures var sel := Label(cat.equipment[k]);
      var r := AddByLabel(cat, cc, AddByLabel(cat, cc, [], sel), sel);
      |r| == 1 && Resolve(cat.equipment, r[0].name) == Some(cat.equipment[k].category)
  {
    var sel := Label(cat.equipment[k]);
    ResolveOwnLabel(cat.equipment, k);
    AddAppendsWhenCategoryAbsent(cat, cc, [], sel, Label, k);
    AddByLabelTwiceAddsOnce(cat, cc, [], sel);
    AddByLabelRowResolves(cat, cc, AddByLabel(cat, cc, [], sel), k);
  }

  /** On the shipped catalog, adding the small stir-fryer twice to an empty
      plan leaves one line, which resolves to 자동볶음기. */
  lemma ShippedAddTwiceByLabel(cc: CurrentCost, selected: string)
    requires selected == Label(AvailableEquipment[9])
    ensures var r := AddByLabel(Shipped, cc, AddByLabel(Shipped, cc, [], selected), selected);
      |r| == 1 && Resolve(AvailableEquipment, r[0].name) == Some("자동볶음기")
  {
    LabelsDistinct();
    AddByLabelTwiceIntoEmpty(Shipped, cc, 9);
  }

  // ---------------------------------------------------------------------
  // Re-pricing an added line
  // ---------------------------------------------------------------------

  /** A line named after a 경일주방 item whose model avoids the initials of
      the first seven entries is priced from the large fryer: the re-pricing
      search starts at the model/maker step, where the shared maker matches
      entry 7 first. */
  lemma SharedMakerRowPricedAsFryer(def: EquipmentDef)
    requires def.maker == "경일주방"
    requires forall c :: c in def.model ==> c !in EarlyInitials
    ensures PriceSource(AvailableEquipment, AddedName(def)) == Some(AvailableEquipment[7])
  {
    var name := AddedName(def);
    assert name == def.maker + (" " + def.model);
    assert name[..4] == "경일주방";
    forall c | c in name
      ensures c !in EarlyInitials
    {
      if c !in def.model {
        assert c in "경일주방 ";
      }
    }
    SharedMakerNamePartMatch(name);
  }

  /** The added stir-fryers and washers are priced from the large fryer. */
  lemma AddedNamePricedAsFryer(k: nat)
    requires k == 9 || k == 10 || k == 15 || k == 16
    ensures PriceSource(AvailableEquipment, AddedName(AvailableEquipment[k])) == Some(AvailableEquipment[7])
  {
    var model := AvailableEquipment[k].model;
    forall i | 0 <= i < |model|
      ensures model[i] !in EarlyInitials
    {
    }
    SharedMakerRowPricedAsFryer(AvailableEquipment[k]);
  }

  /** An added small stir-fryer switched to a one-off purchase is priced at
      the large fryer's 16000 instead of its own 2000; switched back, it rents
      at the fryer's 399 instead of its own 50. */
  lemma AddedStirFryerRepricedAsFryer(devs: seq<Device>, i: nat)
    requires i < |devs| && devs[i].name == AddedName(AvailableEquipment[9]) && devs[i].costType == Monthly
    ensures ToggleCostType(AvailableEquipment, devs, i)[i].cost == 16000.0
    ensures ToggleCostType(AvailableEquipment, ToggleCostType(AvailableEquipment, devs, i), i)[i].cost == 399.0
    ensures AvailableEquipment[9].priceOneTime == 2000.0 && AvailableEquipment[9].priceRental == 50.0
  {
    var fryer := AvailableEquipment[7];
    assert fryer.priceOneTime == 16000.0 && fryer.priceRental == 399.0;
    AddedNamePricedAsFryer(9);
    ToggleTwiceFromSource(AvailableEquipment, devs, i, fryer);
  }

  /** When entry `k`'s label is first matched at the model/maker step by `k`
      itself, the re-pricing search as written prices a line named by that
      label from entry `k`. */
  lemma LabelPricedByOwnEntry(eq: seq<EquipmentDef>, k: nat)
    requires k < |eq| && FirstAt(eq, Label(eq[k]), ByPart, k)
    ensures PriceSource(eq, Label(eq[k])) == Some(eq[k])
  {
    PriceSourceIsOrderedFirstMatch(eq, Label(eq[k]));
  }

  /** With distinct labels, the line the corrected add makes or replaces for
      entry `k` is a monthly line named by `k`'s label; when that label is
      first matched at the model/maker step by `k` itself, switching the line
      to a one-off purchase prices it at `k`'s own purchase price, and
      switching it back at `k`'s own rental price. */
  lemma AddByLabelThenToggle(cat: Catalog, cc: CurrentCost, devs: seq<Device>, k: nat)
    requires k < |cat.equipment|
    requires forall i, j :: 0 <= i < j < |cat.equipment| ==> Label(cat.equipment[i]) != Label(cat.equipment[j])
    requires FirstAt(cat.equipment, Label(cat.equipment[k]), ByPart, k)
    ensures var eq := cat.equipment;
      var r := AddByLabel(cat, cc, devs, Label(eq[k]));
      exists i :: && 0 <= i < |r| && r[i].name == Label(eq[k]) && r[i].costType == Monthly
                  && ToggleCostType(eq, r, i)[i].cost == PriceFor(eq[k], OneTime)
                  && ToggleCostType(eq, ToggleCostType(eq, r, i), i)[i].cost == PriceFor(eq[k], Monthly)
  {
    var eq := cat.equipment;
    var sel := Label(eq[k]);
    var c := eq[k].category;
    FindFirstAt(eq, e => Matches(ByLabel, sel, e), k);
    assert FirstAt(eq, sel, ByLabel, k);
    LabelPricedByOwnEntry(eq, k);
    var r := AddByLabel(cat, cc, devs, sel);
    match FindFirst(devs, d => InCategory(eq, c, d))
    case Some(i) =>
      AddReplacesFirstOfCategory(cat, cc, devs, sel, Label, k, i);
      ToggleTwiceFromSource(eq, r, i, eq[k]);
    case None =>
      AddAppendsWhenCategoryAbsent(cat, cc, devs, sel, Label, k);
      ToggleTwiceFromSource(eq, r, |devs|, eq[k]);
  }

  /** On the shipped catalog, the line the corrected add makes for a
      stir-fryer or washer is re-priced from its own entry, whichever cost
      type it is switched to. */
  lemma ShippedAddedByLabelRepricedOwn(cat: Catalog, cc: CurrentCost, devs: seq<Device>, k: nat)
    requires cat.equipment == AvailableEquipment
    requires k == 9 || k == 10 || k == 15 || k == 16
    ensures var eq := cat.equipment;
      var r := AddByLabel(cat, cc, devs, Label(eq[k]));
      exists i :: && 0 <= i < |r| && r[i].name == Label(eq[k]) && r[i].costType == Monthly
                  && ToggleCostType(eq, r, i)[i].cost == eq[k].priceOneTime
                  && ToggleCostType(eq, ToggleCostType(eq, r, i), i)[i].cost == eq[k].priceRental
  {
    LabelsDistinct();
    OwnLabelPartMatch(k);
    AddByLabelThenToggle(cat, cc, devs, k);
  }

  /** The small stir-fryer added by its label and switched to one-off costs
      its own 2000, not the large fryer's 16000; switched back, it rents at
      its own 50, not 399. */
  lemma ShippedStirFryerByLabelKeepsOwnPrice(cc: CurrentCost, devs: seq<Device>)
    ensures var r := AddByLabel(Shipped, cc, devs, SmallStirFryerLabel);
      exists i :: && 0 <= i < |r| && r[i].name == SmallStirFryerLabel && r[i].costType == Monthly
                  && ToggleCostType(AvailableEquipment, r, i)[i].cost == 2000.0
                  && ToggleCostType(AvailableEquipment, ToggleCostType(AvailableEquipment, r, i), i)[i].cost == 50.0
  {
    SmallStirFryerLabelText();
    assert AvailableEquipment[9].priceOneTime == 2000.0 && AvailableEquipment[9].priceRental == 50.0;
    ShippedAddedByLabelRepricedOwn(Shipped, cc, devs, 9);
  }

  /** A price source that tries the exact label before the model/maker
      search. It differs from the search as written only on catalogs where an
      earlier entry's model or maker occurs inside a later entry's label. */
  function PriceSourceByLabel(eq: seq<EquipmentDef>, name: string): (r: Option<EquipmentDef>)
    ensures r.Some? ==> r.value in eq
  {
    match FindFirst(eq, e => Matches(ByLabel, name, e))
    case Some(k) => Some(eq[k])
    case None => PriceSource(eq, name)
  }

  /** The label-first source and the search as written disagree only when
      the name is some entry `k`'s label and an earlier entry `j` matches it
      by model or maker. */
  lemma PriceSourceByLabelDiffersOnlyOnEarlierPart(eq: seq<EquipmentDef>, name: string)
    requires PriceSourceByLabel(eq, name) != PriceSource(eq, name)
    ensures exists k, j :: 0 <= j < k < |eq| && FirstAt(eq, name, ByLabel, k) && Matches(ByPart, name, eq[j])
  {
    match FindFirst(eq, e => Matches(ByLabel, name, e))
    case None =>
    case Some(k) =>
      LabelMatchIsPartMatch(name, eq[k]);
      var j := FindFirst(eq, e => Matches(ByPart, name, e)).value;
      PriceSourceSkipsLabel(eq, name, j, k);
      assert j != k;
  }

  /** With distinct labels, a line named by its label, as the corrected add
      names it, is priced from its own catalog entry for either cost type. */
  lemma LabelledLinePricedByOwnEntry(eq: seq<EquipmentDef>, k: nat, t: CostType)
    requires k < |eq|
    requires forall i, j :: 0 <= i < j < |eq| ==> Label(eq[i]) != Label(eq[j])
    ensures PriceSourceByLabel(eq, Label(eq[k])) == Some(eq[k])
    ensures PriceFor(PriceSourceByLabel(eq, Label(eq[k])).value, t) == PriceFor(eq[k], t)
  {
    FindFirstAt(eq, e => Matches(ByLabel, Label(eq[k]), e), k);
  }
}

=== FILE: handlers.dfy ===
/** The dashboard's list handlers: remove a line, patch a line (re-pricing on
    a cost-type change), and add a catalog item or replace the line of its
    category. Each maps the current list to the next one. */
module Handlers {

  import opened Types
  import opened Js
  import opened Resolver
  import opened Recalc

  /** Where `splice(index, 1)` starts on a list of length `len`: negative
      positions count from the end, and positions are clamped to the list. */
  function SpliceStart(len: nat, index: int): (k: nat)
    ensures k <= len
    ensures 0 <= index <= len ==> k == index
    ensures index < 0 && len + index >= 0 ==> k == len + index
    ensures len + index < 0 ==> k == 0
    ensures index > len ==> k == len
  {
    if index < 0 then (if len + index < 0 then 0 else len + index)
    else if index > len then len
    else index
  }

  /** `handleRemoveDevice`: deletes the one line `splice(index, 1)` selects. */
  function Remove(devs: seq<Device>, index: int): (r: seq<Device>)
    ensures 0 <= index < |devs| ==> |r| == |devs| - 1
    ensures 0 <= index < |devs| ==> forall j :: 0 <= j < index ==> r[j] == devs[j]
    ensures 0 <= index < |devs| ==> forall j :: index <= j < |r| ==> r[j] == devs[j + 1]
    ensures 0 <= index < |devs| ==> multiset(r) + multiset{devs[index]} == multiset(devs)
    ensures index >= |devs| ==> r == devs
  {
    var k := SpliceStart(|devs|, index);
    if k < |devs| then
      assert devs == devs[..k] + [devs[k]] + devs[k + 1..];
      devs[..k] + devs[k + 1..]
    else devs
  }

  /** Removing a line takes exactly its own saving out of the total. */
  lemma RemoveDropsItsSaving(cat: Catalog, cc: CurrentCost, devs: seq<Device>, index: nat)
    requires index < |devs|
    ensures TotalSaving(cat, cc, Remove(devs, index)) == TotalSaving(cat, cc, devs) - ItemSaving(cat, cc, devs[index])
  {
    var pre, post := devs[..index], devs[index + 1..];
    assert devs == pre + [devs[index]] + post;
    assert Remove(devs, index) == pre + post;
    RecalcAppend(cat, cc, pre, post);
    RecalcAppend(cat, cc, pre + [devs[index]], post);
    RecalcAppend(cat, cc, pre, [devs[index]]);
    var a, m, b := RecalcDevices(cat, cc, pre), RecalcDevices(cat, cc, [devs[index]]), RecalcDevices(cat, cc, post);
    SumOfAppend(a, b, MonthlySavingOf);
    SumOfAppend(a + m, b, MonthlySavingOf);
    SumOfAppend(a, m, MonthlySavingOf);
  }

  /** `Partial<EquipmentRecommendation>`: the fields an update sets. */
  datatype Patch = Patch(
    name: Option<string>,
    costType: Option<CostType>,
    cost: Option<real>,
    count: Option<int>,
    monthlySaving: Option<real>,
    roiMonths: Option<real>,
    reason: Option<string>)

  /** `{ ...device, ...updates }`. */
  function Spread(d: Device, u: Patch): Device {
    Device(u.name.GetOr(d.name), u.costType.GetOr(d.costType), u.cost.GetOr(d.cost), u.count.GetOr(d.count),
           u.monthlySaving.GetOr(d.monthlySaving), u.roiMonths.GetOr(d.roiMonths),
           match u.reason case Some(r) => Some(r) case None => d.reason)
  }

  /** The catalog entry a cost-type change prices from: the first entry whose
      model or maker occurs in the name, else the first entry of the category
      the resolver finds, unless that category is the empty string, which
      the `if (category)` guard treats as absent. The resolver's exact-label
      step is not tried first. */
  function PriceSource(eq: seq<EquipmentDef>, name: string): (r: Option<EquipmentDef>)
    ensures r.Some? ==> r.value in eq
  {
    match FindFirst(eq, e => Matches(ByPart, name, e))
    case Some(i) => Some(eq[i])
    case None =>
      match Resolve(eq, name)
      case None => None
      case Some(c) =>
        if c == "" then None
        else
          match FindFirst(eq, (e: EquipmentDef) => e.category == c)
          case Some(j) => Some(eq[j])
          case None => None
  }

  /** The re-pricing search follows its own ordered first-match policy: the
      first entry matched by model or maker wins, even when the name is some
      entry's exact label; failing that, the first entry of the category the
      resolver finds, unless it is empty; and there is no source exactly when
      both steps fail or the resolver finds the empty category. */
  lemma PriceSourceIsOrderedFirstMatch(eq: seq<EquipmentDef>, name: string)
    ensures forall k :: FirstAt(eq, name, ByPart, k) ==> PriceSource(eq, name) == Some(eq[k])
    ensures NoneAt(eq, name, ByPart) && Resolve(eq, name).Some? && Resolve(eq, name).value != "" ==>
      forall k :: (&& 0 <= k < |eq| && eq[k].category == Resolve(eq, name).value
                   && forall j :: 0 <= j < k ==> eq[j].category != eq[k].category)
        ==> PriceSource(eq, name) == Some(eq[k])
    ensures PriceSource(eq, name).None? <==>
      NoneAt(eq, name, ByPart) && (Resolve(eq, name).None? || Resolve(eq, name) == Some(""))
  {
    forall k | FirstAt(eq, name, ByPart, k)
      ensures PriceSource(eq, name) == Some(eq[k])
    {
      FindFirstAt(eq, e => Matches(ByPart, name, e), k);
    }
    if NoneAt(eq, name, ByPart) {
      assert FindFirst(eq, e => Matches(ByPart, name, e)).None?;
      match Resolve(eq, name)
      case None =>
      case Some(c) =>
        if c != "" {
          ResolveGivesCatalogCategory(eq, name);
          var m :| 0 <= m < |eq| && c == eq[m].category;
          assert FindFirst(eq, (e: EquipmentDef) => e.category == c).Some?;
          forall k | (&& 0 <= k < |eq| && eq[k].category == c
                      && forall j :: 0 <= j < k ==> eq[j].category != eq[k].category)
            ensures PriceSource(eq, name) == Some(eq[k])
          {
            FindFirstAt(eq, (e: EquipmentDef) => e.category == c, k);
          }
        }
    }
  }

  /** The re-pricing search skips the exact-label step: when `name` is entry
      `k`'s label but entry `j` is the first matched by model or maker, the
      line is priced from `j` while the resolver reads it as `k`'s category. */
  lemma PriceSourceSkipsLabel(eq: seq<EquipmentDef>, name: string, j: nat, k: nat)
    requires FirstAt(eq, name, ByLabel, k) && FirstAt(eq, name, ByPart, j)
    ensures j <= k
    ensures PriceSource(eq, name) == Some(eq[j])
    ensures Resolve(eq, name) == Some(eq[k].category)
  {
    LabelMatchIsPartMatch(name, eq[k]);
    PriceSourceIsOrderedFirstMatch(eq, name);
    ResolveIsOrderedFirstMatch(eq, name);
  }

  /** The catalog price of an entry for a cost type. */
  function PriceFor(def: EquipmentDef, t: CostType): real {
    if t == Monthly then def.priceRental else def.priceOneTime
  }

  /** `handleUpdateDevice`: the line at `index` takes the patched fields; when
      the patch switches the cost type and a catalog entry can be found for
      the (patched) name, its cost becomes that entry's price for the new
      type. Every other line is unchanged. */
  function Update(eq: seq<EquipmentDef>, devs: seq<Device>, index: nat, u: Patch): (r: seq<Device>)
    requires index < |devs|
    ensures |r| == |devs|
    ensures forall j :: 0 <= j < |devs| && j != index ==> r[j] == devs[j]
    ensures r[index].(cost := 0.0) == Spread(devs[index], u).(cost := 0.0)
    ensures u.costType.None? || u.costType == Some(devs[index].costType) ==>
      r[index].cost == u.cost.GetOr(devs[index].cost)
    ensures PriceSource(eq, Spread(devs[index], u).name).None? ==>
      r[index].cost == u.cost.GetOr(devs[index].cost)
    ensures (&& u.costType.Some? && u.costType != Some(devs[index].costType)
             && PriceSource(eq, Spread(devs[index], u).name).Some?) ==>
      r[index].cost == PriceFor(PriceSource(eq, Spread(devs[index], u).name).value, u.costType.value)
  {
    var d := Spread(devs[index], u);
    var repriced :=
      if u.costType.Some? && u.costType.value != devs[index].costType then
        match PriceSource(eq, d.name)
        case Some(def) => d.(cost := PriceFor(def, u.costType.value))
        case None => d
      else d;
    devs[index := repriced]
  }

  /** A patch that only sets the cost type. */
  function CostTypePatch(t: CostType): Patch {
    Patch(None, Some(t), None, None, None, None, None)
  }

  /** The cost-type button: flips the line's cost type. */
  function ToggleCostType(eq: seq<EquipmentDef>, devs: seq<Device>, index: nat): (r: seq<Device>)
    requires index < |devs|
    ensures |r| == |devs| && r[index].costType != devs[index].costType
  {
    Update(eq, devs, index, CostTypePatch(devs[index].costType.Flip()))
  }

  /** The cost-type button prices the line from its price source at the
      new cost type whenever a source is found. */
  lemma ToggleRepricesFromSource(eq: seq<EquipmentDef>, devs: seq<Device>, index: nat)
    requires index < |devs| && PriceSource(eq, devs[index].name).Some?
    ensures ToggleCostType(eq, devs, index)[index].cost ==
      PriceFor(PriceSource(eq, devs[index].name).value, devs[index].costType.Flip())
  {
    assert Spread(devs[index], CostTypePatch(devs[index].costType.Flip())).name == devs[index].name;
  }

  /** A monthly line with a price source is bought at the source's purchase
      price after one flip and rented at the source's rental price after two,
      whatever its cost was before. */
  lemma ToggleTwiceFromSource(eq: seq<EquipmentDef>, devs: seq<Device>, index: nat, def: EquipmentDef)
    requires index < |devs| && devs[index].costType == Monthly
    requires PriceSource(eq, devs[index].name) == Some(def)
    ensures ToggleCostType(eq, devs, index)[index].cost == def.priceOneTime
    ensures ToggleCostType(eq, ToggleCostType(eq, devs, index), index)[index].cost == def.priceRental
  {
    ToggleRepricesFromSource(eq, devs, index);
    var once := ToggleCostType(eq, devs, index);
    assert once[index].name == devs[index].name && once[index].costType == OneTime;
    ToggleRepricesFromSource(eq, once, index);
  }

  /** Flipping the cost type twice restores the line exactly when no catalog
      entry can be found for it or its cost already is that entry's price for
      its cost type; otherwise the second flip leaves the catalog price. */
  lemma ToggleTwiceRestoresIff(eq: seq<EquipmentDef>, devs: seq<Device>, index: nat)
    requires index < |devs|
    ensures var d := devs[index];
      var src := PriceSource(eq, d.name);
      ToggleCostType(eq, ToggleCostType(eq, devs, index), index) == devs <==>
        src.None? || d.cost == PriceFor(src.value, d.costType)
  {
    var once := ToggleCostType(eq, devs, index);
    var twice := ToggleCostType(eq, once, index);
    assert once[index].name == devs[index].name;
    assert twice[index].costType == devs[index].costType;
    if twice[index] == devs[index] {
      assert twice == devs;
    }
  }

  /** A patch that only sets the quantity. */
  function CountPatch(n: int): Patch {
    Patch(None, None, None, Some(n), None, None, None)
  }

  /** The quantity box: `parseInt(value) || 1`, so zero and text that is not
      a number become 1 while any other integer, negative ones included, is
      kept. Only the quantity changes; the cost is not re-priced. */
  function SetCount(eq: seq<EquipmentDef>, devs: seq<Device>, index: nat, parsed: Option<int>): (r: seq<Device>)
    requires index < |devs|
    ensures |r| == |devs|
    ensures forall j :: 0 <= j < |devs| && j != index ==> r[j] == devs[j]
    ensures r[index] == devs[index].(count := r[index].count)
    ensures r[index].count != 0
    ensures parsed.Some? && parsed.value != 0 ==> r[index].count == parsed.value
    ensures parsed.None? || parsed == Some(0) ==> r[index].count == 1
  {
    Update(eq, devs, index, CountPatch(ParseIntOrOne(parsed)))
  }

  /** `"{maker} {model}"`, the name a catalog item gets when it is added. */
  function AddedName(def: EquipmentDef): string {
    def.maker + " " + def.model
  }

  /** The reason texts the dashboard gives to replaced and added lines. */
  const ReplacedReason: string := "사용자 변경 (모델 교체)"
  const AddedReason: string := "사용자 추가"

  /** A fresh monthly-rental line for a catalog entry; the saving is the
      provisional figure the dashboard stores before recalculation. */
  function CatalogRow(cat: Catalog, cc: CurrentCost, def: EquipmentDef, name: string, count: int, reason: string): Device {
    var rule := if def.category in cat.savings then cat.savings[def.category] else NoRule;
    Device(name, Monthly, def.priceRental, count,
           Round(rule.amount * ClassUnitCost(cc, rule.kind) * count as real), 0.0, Some(reason))
  }

  /** Line `d`'s name resolves to category `c`. */
  predicate InCategory(eq: seq<EquipmentDef>, c: string, d: Device) {
    Resolve(eq, d.name) == Some(c)
  }

  /** `handleAddDevice` with the row name as a parameter: nothing happens
      unless `selected` is the label of a catalog entry; then the first line
      whose name resolves to that entry's category is replaced, keeping its
      quantity, or else a line of quantity 1 is appended. */
  function AddNamed(cat: Catalog, cc: CurrentCost, devs: seq<Device>, selected: string,
                    rowName: EquipmentDef -> string): seq<Device> {
    if selected == "" then devs
    else
      match FindFirst(cat.equipment, e => Matches(ByLabel, selected, e))
      case None => devs
      case Some(k) =>
        var def := cat.equipment[k];
        match FindFirst(devs, d => InCategory(cat.equipment, def.category, d))
        case Some(i) => devs[i := CatalogRow(cat, cc, def, rowName(def), devs[i].count, ReplacedReason)]
        case None => devs + [CatalogRow(cat, cc, def, rowName(def), 1, AddedReason)]
  }

  /** `handleAddDevice` as written: the new or replacing line is named
      `"{maker} {model}"`. */
  function AddDevice(cat: Catalog, cc: CurrentCost, devs: seq<Device>, selected: string): (r: seq<Device>)
    ensures (forall k :: 0 <= k < |cat.equipment| ==> Label(cat.equipment[k]) != selected) ==> r == devs
    ensures |devs| <= |r| <= |devs| + 1
  {
    AddNamed(cat, cc, devs, selected, AddedName)
  }

  /** When some line already resolves to the selected entry's category, the
      first such line is replaced in place by a monthly-rental line at the
      catalog's rental price that keeps the old quantity; nothing else moves. */
  lemma AddReplacesFirstOfCategory(cat: Catalog, cc: CurrentCost, devs: seq<Device>, selected: string,
                                   rowName: EquipmentDef -> string, k: nat, i: nat)
    requires FirstAt(cat.equipment, selected, ByLabel, k)
    requires i < |devs| && InCategory(cat.equipment, cat.equipment[k].category, devs[i])
    requires forall j :: 0 <= j < i ==> !InCategory(cat.equipment, cat.equipment[k].category, devs[j])
    ensures var r := AddNamed(cat, cc, devs, selected, rowName);
      var def := cat.equipment[k];
      && |r| == |devs|
      && r[i] == Device(rowName(def), Monthly, def.priceRental, devs[i].count, r[i].monthlySaving, 0.0, Some(ReplacedReason))
      && forall j :: 0 <= j < |devs| && j != i ==> r[j] == devs[j]
  {
    FindFirstAt(cat.equipment, e => Matches(ByLabel, selected, e), k);
    FindFirstAt(devs, d => InCategory(cat.equipment, cat.equipment[k].category, d), i);
  }

  /** When no line resolves to the selected entry's category, a monthly-rental
      line of quantity 1 at the catalog's rental price is appended. */
  lemma AddAppendsWhenCategoryAbsent(cat: Catalog, cc: CurrentCost, devs: seq<Device>, selected: string,
                                     rowName: EquipmentDef -> string, k: nat)
    requires FirstAt(cat.equipment, selected, ByLabel, k)
    requires forall j :: 0 <= j < |devs| ==> !InCategory(cat.equipment, cat.equipment[k].category, devs[j])
    ensures var r := AddNamed(cat, cc, devs, selected, rowName);
      var def := cat.equipment[k];
      && |r| == |devs| + 1 && r[..|devs|] == devs
      && r[|devs|] == Device(rowName(def), Monthly, def.priceRental, 1, r[|devs|].monthlySaving, 0.0, Some(AddedReason))
  {
    FindFirstAt(cat.equipment, e => Matches(ByLabel, selected, e), k);
  }
}

=== FILE: js.dfy ===
/** The few JavaScript built-ins the engine relies on, over unbounded
    integers, exact reals and strings as sequences of characters. */
module Js {

  import opened Types

  /** `s.includes(t)`: whether `t` occurs as a contiguous part of `s`. */
  predicate Includes(s: string, t: string)
    decreases |s|
  {
    |t| <= |s| && (s[..|t|] == t || Includes(s[1..], t))
  }

  /** The textbook meaning of "t occurs in s". */
  ghost predicate OccursAt(s: string, t: string, i: int) {
    0 <= i && i + |t| <= |s| && s[i..i + |t|] == t
  }

  lemma {:induction false} IncludesIffOccurs(s: string, t: string)
    ensures Includes(s, t) <==> exists i :: OccursAt(s, t, i)
    decreases |s|
  {
    if |t| <= |s| {
      if s[..|t|] == t {
        assert OccursAt(s, t, 0);
      } else {
        IncludesIffOccurs(s[1..], t);
        if Includes(s[1..], t) {
          var i :| OccursAt(s[1..], t, i);
          assert s[i + 1..i + 1 + |t|] == s[1..][i..i + |t|];
          assert OccursAt(s, t, i + 1);
        } else {
          forall i ensures !OccursAt(s, t, i) {
            if 0 < i && i + |t| <= |s| {
              assert !OccursAt(s[1..], t, i - 1);
              assert s[1..][i - 1..i - 1 + |t|] == s[i..i + |t|];
            } else if i == 0 {
              assert s[0..|t|] == s[..|t|];
            }
          }
        }
      }
    }
  }

  /** Every string includes each of its suffixes. */
  lemma {:induction false} IncludesSuffix(p: string, t: string)
    ensures Includes(p + t, t)
  {
    IncludesIffOccurs(p + t, t);
    assert (p + t)[|p|..|p| + |t|] == t;
    assert OccursAt(p + t, t, |p|);
  }

  /** A string that lacks the first character of `t` cannot include `t`. */
  lemma {:induction false} MissingFirstChar(s: string, t: string)
    requires |t| > 0 && t[0] !in s
    ensures !Includes(s, t)
  {
    IncludesIffOccurs(s, t);
    forall i | 0 <= i && i + |t| <= |s|
      ensures !OccursAt(s, t, i)
    {
      assert s[i..i + |t|][0] == s[i];
    }
  }

  /** A string that lacks some character of `t` cannot include `t`. */
  lemma {:induction false} MissingChar(s: string, t: string, i: nat)
    requires i < |t| && t[i] !in s
    ensures !Includes(s, t)
  {
    IncludesIffOccurs(s, t);
    forall m | 0 <= m && m + |t| <= |s|
      ensures !OccursAt(s, t, m)
    {
      assert s[m..m + |t|][i] == s[m + i];
    }
  }

  /** `Math.round(x)`: the nearest integer, halves rounded up. */
  function Round(x: real): (r: real)
    ensures r == r.Floor as real
    ensures x - 0.5 < r <= x + 0.5
  {
    (x + 0.5).Floor as real
  }

  /** Rounding a whole number leaves it unchanged. */
  lemma RoundWhole(x: real)
    requires x == x.Floor as real
    ensures Round(x) == x
  {
    var n, f := x.Floor, (x + 0.5).Floor;
    assert f as real <= x + 0.5 < f as real + 1.0;
    assert n - 1 < f < n + 1;
  }

  /** `parseFloat(x.toFixed(1))` for non-negative `x`: the nearest multiple
      of one tenth, halves rounded up. */
  function RoundTenth(x: real): (r: real)
    ensures (r * 10.0) == (r * 10.0).Floor as real
    ensures x - 0.05 < r <= x + 0.05
  {
    Round(x * 10.0) / 10.0
  }

  /** `parseInt(text) || 1`: `None` stands for `NaN`; both `NaN` and `0` are falsy. */
  function ParseIntOrOne(parsed: Option<int>): (n: int)
    ensures n != 0
    ensures parsed.Some? && parsed.value != 0 <==> parsed == Some(n)
    ensures parsed.None? || parsed == Some(0) ==> n == 1
  {
    match parsed
    case Some(v) => if v != 0 then v else 1
    case None => 1
  }
}

=== FILE: recalc.dfy ===
/** The `calculatedPlan` recalculation of the results dashboard: per-class
    unit labour cost, per-item saving, and the aggregate plan figures. */
module Recalc {

  import opened Types
  import opened Js
  import opened Resolver

  /** The payback value that stands for "not recoverable". */
  const Unrecoverable: real := 999.0

  /** One-off purchases are spread over this many months. */
  const AmortisationMonths: real := 36.0

  /** The rule used when a name resolves to no category, or to one without a rule. */
  const NoRule: LaborRule := LaborRule(0.0, PT)

  /** Cost of one employee of a class: the class total shared by its
      headcount, or zero when there is no headcount. */
  function UnitCost(headcount: real, total: real): (u: real)
    ensures headcount > 0.0 ==> u * headcount == total
    ensures headcount <= 0.0 ==> u == 0.0
  {
    if headcount > 0.0 then total / headcount else 0.0
  }

  /** `ftUnitCost` or `ptUnitCost`. */
  function ClassUnitCost(cc: CurrentCost, kind: EmployeeClass): real {
    match kind
    case FT => UnitCost(cc.employeeCountFT, cc.employeeCostFT)
    case PT => UnitCost(cc.employeeCountPT, cc.employeeCostPT)
  }

  /** `LABOR_SAVING_ESTIMATES[category || ''] || { amount: 0, type: 'PT' }`. */
  function RuleFor(cat: Catalog, name: string): (rule: LaborRule)
    ensures Resolve(cat.equipment, name).None? ==> rule == NoRule
  {
    match Resolve(cat.equipment, name)
    case Some(c) => if c in cat.savings then cat.savings[c] else NoRule
    case None => NoRule
  }

  /** Monthly saving of one line: the unit saving of its class times the
      quantity, rounded to a whole currency unit. */
  function LineSaving(cat: Catalog, cc: CurrentCost, name: string, count: int): (s: real)
    ensures s == s.Floor as real
  {
    var rule := RuleFor(cat, name);
    Round(rule.amount * ClassUnitCost(cc, rule.kind) * count as real)
  }

  /** The saving of a line, which reads only its name and quantity. */
  function ItemSaving(cat: Catalog, cc: CurrentCost, d: Device): (s: real)
    ensures s == s.Floor as real
  {
    LineSaving(cat, cc, d.name, d.count)
  }

  /** `d` and `e` agree on every field except `monthly_saving`. */
  predicate SameButSaving(d: Device, e: Device) {
    && d.name == e.name && d.costType == e.costType && d.cost == e.cost
    && d.count == e.count && d.roiMonths == e.roiMonths && d.reason == e.reason
  }

  /** The `localDevices.map(...)` step: every line keeps its position and
      fields, and only its monthly saving is recomputed. */
  function RecalcDevices(cat: Catalog, cc: CurrentCost, devs: seq<Device>): (out: seq<Device>)
    ensures |out| == |devs|
    ensures forall i :: 0 <= i < |devs| ==> SameButSaving(out[i], devs[i])
    ensures forall i :: 0 <= i < |devs| ==> out[i].monthlySaving == ItemSaving(cat, cc, devs[i])
  {
    if |devs| == 0 then []
    else [devs[0].(monthlySaving := ItemSaving(cat, cc, devs[0]))] + RecalcDevices(cat, cc, devs[1..])
  }

  /** Sum of `f` over the lines, in list order. */
  function SumOf(devs: seq<Device>, f: Device -> real): real {
    if |devs| == 0 then 0.0 else f(devs[0]) + SumOf(devs[1..], f)
  }

  /** What a line adds to `totalMonthlySaving`. */
  function MonthlySavingOf(d: Device): real {
    d.monthlySaving
  }

  /** What a line adds to `totalInvestmentCost`. */
  function ItemInvestment(d: Device): real {
    if d.costType == OneTime then d.cost * d.count as real else 0.0
  }

  /** What a line adds to `totalMonthlyEquipmentCost`: the rental fee, or the
      purchase price spread over the amortisation window. */
  function ItemEquipmentCost(d: Device): real {
    if d.costType == OneTime then d.cost * d.count as real / AmortisationMonths
    else d.cost * d.count as real
  }

  /** What a line adds to `totalReducedFT` (kind `FT`) or `totalReducedPT`
      (kind `PT`): the headcount fraction times the quantity. */
  function ReducedOf(cat: Catalog, kind: EmployeeClass): Device -> real {
    (d: Device) => LineReduced(cat, kind, d.name, d.count)
  }

  /** The headcount fraction of class `kind` that a line with this name and
      quantity saves. */
  function LineReduced(cat: Catalog, kind: EmployeeClass, name: string, count: int): real {
    var rule := RuleFor(cat, name);
    if rule.kind == kind then rule.amount * count as real else 0.0
  }

  /** The payback period: zero without capital at risk, the sentinel when the
      net gain is not positive, else investment over net gain to one decimal. */
  function Payback(investment: real, net: real): (m: real)
    ensures investment <= 0.0 ==> m == 0.0
    ensures investment > 0.0 && net <= 0.0 ==> m == Unrecoverable
    ensures investment > 0.0 && net > 0.0 ==>
      && m >= 0.0
      && m * 10.0 == (m * 10.0).Floor as real
      && investment / net - 0.05 < m <= investment / net + 0.05
  {
    if investment > 0.0 then
      if net > 0.0 then RoundTenth(investment / net) else Unrecoverable
    else 0.0
  }

  /** The recalculated plan and the extra display fields. */
  datatype Plan = Plan(
    devices: seq<Device>,
    totalMonthlySaving: real,
    totalInvestmentCost: real,
    totalMonthlyEquipmentCost: real,
    netProfitIncrease: real,
    totalRoiMonths: real,
    totalReducedFT: real,
    totalReducedPT: real)

  /** Unrounded total of the recomputed per-line savings. */
  function TotalSaving(cat: Catalog, cc: CurrentCost, devs: seq<Device>): real {
    SumOf(RecalcDevices(cat, cc, devs), MonthlySavingOf)
  }

  /** Unrounded monthly net gain: savings minus equipment cost. */
  function NetGain(cat: Catalog, cc: CurrentCost, devs: seq<Device>): real {
    TotalSaving(cat, cc, devs) - SumOf(devs, ItemEquipmentCost)
  }

  /** `calculatedPlan`: recompute every line's saving, then roll up. */
  function Recalculate(cat: Catalog, cc: CurrentCost, devs: seq<Device>): (p: Plan)
    ensures |p.devices| == |devs|
    ensures forall i :: 0 <= i < |devs| ==> SameButSaving(p.devices[i], devs[i])
    ensures forall i :: 0 <= i < |devs| ==> p.devices[i].monthlySaving == ItemSaving(cat, cc, devs[i])
  {
    Summarise(cat, RecalcDevices(cat, cc, devs))
  }

  /** The figures of the recalculated plan: the total saving is the sum of the
      rounded line savings (already whole, so rounding it changes nothing);
      investment counts one-off lines only; equipment cost is rent plus
      purchases spread over 36 months; the net gain is saving minus equipment
      cost; the payback is taken from the unrounded investment and net gain;
      the reduced headcounts are split by the class of each line's rule. */
  lemma RecalculateFigures(cat: Catalog, cc: CurrentCost, devs: seq<Device>)
    ensures Recalculate(cat, cc, devs).totalMonthlySaving == TotalSaving(cat, cc, devs)
    ensures Recalculate(cat, cc, devs).totalInvestmentCost == Round(SumOf(devs, ItemInvestment))
    ensures Recalculate(cat, cc, devs).totalMonthlyEquipmentCost == Round(SumOf(devs, ItemEquipmentCost))
    ensures Recalculate(cat, cc, devs).netProfitIncrease == Round(NetGain(cat, cc, devs))
    ensures Recalculate(cat, cc, devs).totalRoiMonths == Payback(SumOf(devs, ItemInvestment), NetGain(cat, cc, devs))
    ensures Recalculate(cat, cc, devs).totalReducedFT == SumOf(devs, ReducedOf(cat, FT))
    ensures Recalculate(cat, cc, devs).totalReducedPT == SumOf(devs, ReducedOf(cat, PT))
  {
    RecalcKeepsCosts(cat, cc, devs);
    TotalSavingIsWhole(cat, cc, devs);
    RoundWhole(TotalSaving(cat, cc, devs));
    RecalcKeepsReduced(cat, cc, devs, FT);
    RecalcKeepsReduced(cat, cc, devs, PT);
  }

  /** The roll-up over recomputed lines: totals rounded for display, payback
      from the unrounded investment and net gain. */
  function Summarise(cat: Catalog, out: seq<Device>): Plan
  {
    var saving := SumOf(out, MonthlySavingOf);
    var investment := SumOf(out, ItemInvestment);
    var equipment := SumOf(out, ItemEquipmentCost);
    var net := saving - equipment;
    Plan(out, Round(saving), Round(investment), Round(equipment), Round(net),
         Payback(investment, net),
         SumOf(out, ReducedOf(cat, FT)), SumOf(out, ReducedOf(cat, PT)))
  }

  /** Recomputing the savings leaves the cost sums as they were. */
  lemma RecalcKeepsCosts(cat: Catalog, cc: CurrentCost, devs: seq<Device>)
    ensures SumOf(RecalcDevices(cat, cc, devs), ItemInvestment) == SumOf(devs, ItemInvestment)
    ensures SumOf(RecalcDevices(cat, cc, devs), ItemEquipmentCost) == SumOf(devs, ItemEquipmentCost)
  {
    SumOfSameCosts(RecalcDevices(cat, cc, devs), devs);
  }

  /** Recomputing the savings leaves the reduced headcounts as they were. */
  lemma RecalcKeepsReduced(cat: Catalog, cc: CurrentCost, devs: seq<Device>, kind: EmployeeClass)
    ensures SumOf(RecalcDevices(cat, cc, devs), ReducedOf(cat, kind)) == SumOf(devs, ReducedOf(cat, kind))
  {
    var out, f := RecalcDevices(cat, cc, devs), ReducedOf(cat, kind);
    forall i | 0 <= i < |devs|
      ensures f(out[i]) == f(devs[i])
    {
      assert SameButSaving(out[i], devs[i]);
    }
    SumOfPointwise(out, devs, f);
  }

  /** The total saving is a whole number of currency units. */
  lemma TotalSavingIsWhole(cat: Catalog, cc: CurrentCost, devs: seq<Device>)
    ensures TotalSaving(cat, cc, devs) == TotalSaving(cat, cc, devs).Floor as real
  {
    SumOfIntegral(RecalcDevices(cat, cc, devs));
  }

  /** Lines that agree on everything but the saving have the same cost sums. */
  lemma {:induction false} SumOfSameCosts(a: seq<Device>, b: seq<Device>)
    requires |a| == |b| && forall i :: 0 <= i < |a| ==> SameButSaving(a[i], b[i])
    ensures SumOf(a, ItemInvestment) == SumOf(b, ItemInvestment)
    ensures SumOf(a, ItemEquipmentCost) == SumOf(b, ItemEquipmentCost)
  {
    if |a| > 0 {
      SumOfSameCosts(a[1..], b[1..]);
    }
  }

  /** Whole-unit savings add up to a whole number, so rounding the total
      changes nothing. */
  lemma {:induction false} SumOfIntegral(devs: seq<Device>)
    requires forall i :: 0 <= i < |devs| ==> devs[i].monthlySaving == devs[i].monthlySaving.Floor as real
    ensures SumOf(devs, MonthlySavingOf) == SumOf(devs, MonthlySavingOf).Floor as real
  {
    if |devs| > 0 {
      SumOfIntegral(devs[1..]);
      var a, b := devs[0].monthlySaving.Floor, SumOf(devs[1..], MonthlySavingOf).Floor;
      assert SumOf(devs, MonthlySavingOf) == (a + b) as real;
    }
  }

  /** Sums over two lists that agree pointwise under `f` are equal. */
  lemma {:induction false} SumOfPointwise(a: seq<Device>, b: seq<Device>, f: Device -> real)
    requires |a| == |b| && forall i :: 0 <= i < |a| ==> f(a[i]) == f(b[i])
    ensures SumOf(a, f) == SumOf(b, f)
  {
    if |a| > 0 {
      SumOfPointwise(a[1..], b[1..], f);
    }
  }

  /** Sums distribute over concatenation. */
  lemma {:induction false} SumOfAppend(a: seq<Device>, b: seq<Device>, f: Device -> real)
    ensures SumOf(a + b, f) == SumOf(a, f) + SumOf(b, f)
  {
    if |a| > 0 {
      assert (a + b)[0] == a[0];
      assert (a + b)[1..] == a[1..] + b;
      SumOfAppend(a[1..], b, f);
    } else {
      assert a + b == b;
    }
  }

  /** The saving of a line depends only on that line's name and quantity, so
      recomputation distributes over concatenation. */
  lemma RecalcAppend(cat: Catalog, cc: CurrentCost, a: seq<Device>, b: seq<Device>)
    ensures RecalcDevices(cat, cc, a + b) == RecalcDevices(cat, cc, a) + RecalcDevices(cat, cc, b)
  {
    var l, r := RecalcDevices(cat, cc, a + b), RecalcDevices(cat, cc, a) + RecalcDevices(cat, cc, b);
    assert forall i :: 0 <= i < |l| ==> l[i] == r[i];
  }

  /** The total saving does not depend on the order in which lines were added. */
  lemma TotalSavingOrderFree(cat: Catalog, cc: CurrentCost, a: seq<Device>, b: seq<Device>)
    ensures TotalSaving(cat, cc, a + b) == TotalSaving(cat, cc, b + a)
  {
    RecalcAppend(cat, cc, a, b);
    RecalcAppend(cat, cc, b, a);
    SumOfAppend(RecalcDevices(cat, cc, a), RecalcDevices(cat, cc, b), MonthlySavingOf);
    SumOfAppend(RecalcDevices(cat, cc, b), RecalcDevices(cat, cc, a), MonthlySavingOf);
  }

  /** The total saving of a non-empty list is its first line's saving plus
      the total of the rest. */
  lemma TotalSavingCons(cat: Catalog, cc: CurrentCost, a: seq<Device>)
    requires |a| > 0
    ensures TotalSaving(cat, cc, a) == ItemSaving(cat, cc, a[0]) + TotalSaving(cat, cc, a[1..])
  {
    assert RecalcDevices(cat, cc, a)[1..] == RecalcDevices(cat, cc, a[1..]);
  }

  /** The total saving of two lists one after the other is the sum of their totals. */
  lemma TotalSavingAppend(cat: Catalog, cc: CurrentCost, a: seq<Device>, b: seq<Device>)
    ensures TotalSaving(cat, cc, a + b) == TotalSaving(cat, cc, a) + TotalSaving(cat, cc, b)
  {
    RecalcAppend(cat, cc, a, b);
    SumOfAppend(RecalcDevices(cat, cc, a), RecalcDevices(cat, cc, b), MonthlySavingOf);
  }

  /** Taking out line `i` takes its saving out of the total. */
  lemma TotalSavingSplitAt(cat: Catalog, cc: CurrentCost, b: seq<Device>, i: nat)
    requires i < |b|
    ensures TotalSaving(cat, cc, b) == ItemSaving(cat, cc, b[i]) + TotalSaving(cat, cc, b[..i] + b[i + 1..])
  {
    var tail := b[i..];
    assert b == b[..i] + tail;
    TotalSavingAppend(cat, cc, b[..i], tail);
    TotalSavingCons(cat, cc, tail);
    assert tail[0] == b[i] && tail[1..] == b[i + 1..];
    TotalSavingAppend(cat, cc, b[..i], b[i + 1..]);
  }

  /** Matching the first line of `a` with an equal line of `b` leaves two
      lists with equal multisets. */
  lemma MultisetRemoveMatch(a: seq<Device>, b: seq<Device>, i: nat)
    requires multiset(a) == multiset(b) && |a| > 0 && i < |b| && b[i] == a[0]
    ensures multiset(a[1..]) == multiset(b[..i] + b[i + 1..])
  {
    assert a == [a[0]] + a[1..];
    assert multiset(a) == multiset{a[0]} + multiset(a[1..]);
    assert b == b[..i] + [b[i]] + b[i + 1..];
    assert multiset(b) == multiset(b[..i]) + multiset{b[i]} + multiset(b[i + 1..]);
    assert multiset(b[..i] + b[i + 1..]) == multiset(b[..i]) + multiset(b[i + 1..]);
    assert multiset(a[1..]) == multiset(a) - multiset{a[0]};
    assert multiset(b[..i] + b[i + 1..]) == multiset(b) - multiset{b[i]};
  }

  /** The total saving depends only on which lines the plan holds, each with
      its multiplicity, and not on their order. */
  lemma {:induction false} TotalSavingPermutationFree(cat: Catalog, cc: CurrentCost, a: seq<Device>, b: seq<Device>)
    requires multiset(a) == multiset(b)
    ensures TotalSaving(cat, cc, a) == TotalSaving(cat, cc, b)
    decreases |a|
  {
    if |a| == 0 {
      assert |multiset(b)| == 0;
      assert b == [];
    } else {
      assert a[0] in multiset(b);
      var i :| 0 <= i < |b| && b[i] == a[0];
      MultisetRemoveMatch(a, b, i);
      TotalSavingPermutationFree(cat, cc, a[1..], b[..i] + b[i + 1..]);
      TotalSavingCons(cat, cc, a);
      TotalSavingSplitAt(cat, cc, b, i);
    }
  }

  /** Recomputed lines are a fixed point of recomputation. */
  lemma RecalcFixpoint(cat: Catalog, cc: CurrentCost, devs: seq<Device>)
    ensures RecalcDevices(cat, cc, RecalcDevices(cat, cc, devs)) == RecalcDevices(cat, cc, devs)
  {
    var out := RecalcDevices(cat, cc, devs);
    var again := RecalcDevices(cat, cc, out);
    assert forall i :: 0 <= i < |out| ==> again[i] == out[i];
  }

  /** Recomputing the recomputed plan gives the same plan: the stored
      `monthly_saving` is never an input. */
  lemma RecalcIdempotent(cat: Catalog, cc: CurrentCost, devs: seq<Device>)
    ensures Recalculate(cat, cc, Recalculate(cat, cc, devs).devices) == Recalculate(cat, cc, devs)
  {
    RecalcFixpoint(cat, cc, devs);
  }

  /** A name that resolves to no category saves nothing. */
  lemma UnresolvedSavesNothing(cat: Catalog, cc: CurrentCost, d: Device)
    requires Resolve(cat.equipment, d.name).None?
    ensures ItemSaving(cat, cc, d) == 0.0
    ensures ReducedOf(cat, FT)(d) == 0.0
  {
  }

  /** Without headcount in a class, every line saved from that class saves
      nothing, whatever its quantity. */
  lemma ZeroHeadcountGuard(cat: Catalog, cc: CurrentCost, name: string, count: int)
    requires RuleFor(cat, name).kind == FT ==> cc.employeeCountFT <= 0.0
    requires RuleFor(cat, name).kind == PT ==> cc.employeeCountPT <= 0.0
    ensures LineSaving(cat, cc, name, count) == 0.0
  {
    var rule := RuleFor(cat, name);
    assert ClassUnitCost(cc, rule.kind) == 0.0;
    assert rule.amount * ClassUnitCost(cc, rule.kind) * count as real == 0.0;
  }

  /** With capital at risk and a positive net gain, the payback shows as a
      positive number exactly when investment over net gain is at least 0.05;
      smaller ratios round to 0.0, which is also what "no investment" shows. */
  lemma PaybackPositiveIff(investment: real, net: real)
    requires investment > 0.0 && net > 0.0
    ensures Payback(investment, net) > 0.0 <==> investment / net >= 0.05
  {
    var x := investment / net;
    var f := (x * 10.0 + 0.5).Floor;
    assert f as real <= x * 10.0 + 0.5 < f as real + 1.0;
    assert Payback(investment, net) == f as real / 10.0;
  }

  /** The reduced full-time and part-time headcounts together are the whole
      headcount fraction saved by the plan. */
  lemma {:induction false} ReducedSplit(cat: Catalog, devs: seq<Device>)
    ensures SumOf(devs, ReducedOf(cat, FT)) + SumOf(devs, ReducedOf(cat, PT)) == SumOf(devs, HeadcountSaved(cat))
  {
    if |devs| > 0 {
      ReducedSplit(cat, devs[1..]);
    }
  }

  /** Headcount fraction saved by one line: the rule's amount times the quantity. */
  function HeadcountSaved(cat: Catalog): Device -> real {
    (d: Device) => RuleFor(cat, d.name).amount * d.count as real
  }

  /** Buying more units of a one-off item never lowers the investment or the
      monthly equipment cost. */
  lemma {:induction false} MoreUnitsNeverCheaper(devs: seq<Device>, i: nat, n: int)
    requires i < |devs| && devs[i].costType == OneTime && devs[i].cost >= 0.0 && n >= devs[i].count
    ensures SumOf(devs[i := devs[i].(count := n)], ItemInvestment) >= SumOf(devs, ItemInvestment)
    ensures SumOf(devs[i := devs[i].(count := n)], ItemEquipmentCost) >= SumOf(devs, ItemEquipmentCost)
  {
    var more := devs[i := devs[i].(count := n)];
    if i == 0 {
      assert more[1..] == devs[1..];
      assert devs[0].cost * n as real >= devs[0].cost * devs[0].count as real;
    } else {
      assert more[1..] == devs[1..][i - 1 := devs[i].(count := n)];
      MoreUnitsNeverCheaper(devs[1..], i - 1, n);
    }
  }

  /** Labour cost after automation: the current labour cost less the saving,
      never below zero. */
  function PredictedLabor(cc: CurrentCost, saving: real): (l: real)
    ensures l >= 0.0 && l >= cc.monthlyLaborCost - saving
    ensures l == 0.0 || l == cc.monthlyLaborCost - saving
  {
    if cc.monthlyLaborCost - saving > 0.0 then cc.monthlyLaborCost - saving else 0.0
  }

  /** The dashboard's before/after figures. */
  datatype Outlook = Outlook(
    predictedLaborCost: real,
    currentTotalCost: real,
    predictedTotalCost: real,
    currentNetProfit: real,
    predictedNetProfit: real)

  /** The before/after figures derived from the baseline and the recalculated plan. */
  function DashboardOutlook(cc: CurrentCost, p: Plan): Outlook {
    var labor := PredictedLabor(cc, p.totalMonthlySaving);
    var currentTotal := cc.monthlyLaborCost + cc.monthlyFixedCost;
    var predictedTotal := labor + cc.monthlyFixedCost + p.totalMonthlyEquipmentCost;
    Outlook(labor, currentTotal, predictedTotal, cc.monthlySales - currentTotal, cc.monthlySales - predictedTotal)
  }

  /** With the labour total equal to the two class totals, the profit gain
      shown by the before/after figures is the saving, capped at the whole
      labour bill, less the rounded equipment cost. */
  lemma OutlookProfitGain(cc: CurrentCost, p: Plan)
    requires LaborTotalConsistent(cc)
    ensures var o := DashboardOutlook(cc, p);
      var labor := cc.employeeCostFT + cc.employeeCostPT;
      var capped := if p.totalMonthlySaving < labor then p.totalMonthlySaving else labor;
      o.predictedNetProfit - o.currentNetProfit == capped - p.totalMonthlyEquipmentCost
  {
  }

  /** What the payback card shows: 불가 for the sentinel, else the months. */
  datatype PaybackShown = Impossible | Months(months: real)

  function ShowPayback(m: real): (s: PaybackShown)
    ensures s == Impossible <==> m == Unrecoverable
    ensures s.Months? ==> s.months == m
  {
    if m == Unrecoverable then Impossible else Months(m)
  }

  /** The card reads 불가 exactly when there is capital at risk and either
      the net gain is not positive or the ratio of investment to net gain
      rounds to 999.0 months, which the sentinel cannot be told apart from. */
  lemma ShownImpossibleIff(investment: real, net: real)
    ensures ShowPayback(Payback(investment, net)) == Impossible <==>
      investment > 0.0 && (net <= 0.0 || 9989.5 * net <= 10.0 * investment < 9990.5 * net)
  {
    if investment > 0.0 && net > 0.0 {
      var t := investment / net * 10.0;
      assert t * net == 10.0 * investment;
      var f := (t + 0.5).Floor;
      assert f as real <= t + 0.5 < f as real + 1.0;
      assert Payback(investment, net) == f as real / 10.0;
      assert Payback(investment, net) == Unrecoverable <==> 9989.5 <= t < 9990.5;
      ScaleOrder(t, 9989.5, net, 10.0 * investment);
      ScaleOrder(t, 9990.5, net, 10.0 * investment);
    }
  }

  /** Multiplying by a positive factor keeps the order. */
  lemma ScaleOrder(a: real, b: real, k: real, ak: real)
    requires k > 0.0 && a * k == ak
    ensures a < b <==> ak < b * k
  {
    assert (b - a) * k == b * k - a * k;
  }

  /** A recoverable investment of 999 at a net gain of 1 a month is shown as
      unrecoverable. */
  lemma SentinelCollision()
    ensures Payback(999.0, 1.0) == 999.0
    ensures ShowPayback(Payback(999.0, 1.0)) == Impossible
  {
    ShownImpossibleIff(999.0, 1.0);
  }
}

=== FILE: resolver.dfy ===
/** `getCategoryFromDeviceName`: maps a free-text equipment name to the
    category of a catalog entry, by an ordered first-match policy. */
module Resolver {

  import opened Types
  import opened Js

  /** The dropdown label of a catalog entry, `"{category} - {model}"`. */
  function Label(e: EquipmentDef): string {
    e.category + " - " + e.model
  }

  /** The three matching steps of the resolver, in the order they are tried. */
  datatype Step = ByLabel | ByPart | ByCategory

  /** Whether `name` matches entry `e` at the given step: the exact label,
      the model or maker as a part of the name, or the category as a part. */
  predicate Matches(step: Step, name: string, e: EquipmentDef) {
    match step
    case ByLabel => Label(e) == name
    case ByPart => Includes(name, e.model) || Includes(name, e.maker)
    case ByCategory => Includes(name, e.category)
  }

  /** `Array.prototype.find` / `findIndex`: the position of the first element
      that satisfies `p`, or `None` when there is none. */
  function FindFirst<T>(s: seq<T>, p: T -> bool): (r: Option<nat>)
    ensures r.Some? ==> r.value < |s| && p(s[r.value])
    ensures r.Some? ==> forall j :: 0 <= j < r.value ==> !p(s[j])
    ensures r.None? <==> forall j :: 0 <= j < |s| ==> !p(s[j])
  {
    if |s| == 0 then None
    else if p(s[0]) then Some(0)
    else match FindFirst(s[1..], p)
      case None => None
      case Some(k) => Some(k + 1)
  }

  /** `FindFirst` is determined by the first position that satisfies `p`. */
  lemma FindFirstAt<T>(s: seq<T>, p: T -> bool, k: nat)
    requires k < |s| && p(s[k])
    requires forall j :: 0 <= j < k ==> !p(s[j])
    ensures FindFirst(s, p) == Some(k)
  {
  }

  /** `Array.from(new Set(xs))`: the distinct elements in order of first occurrence. */
  function Distinct(xs: seq<string>): (d: seq<string>)
    ensures forall x :: x in d <==> x in xs
    ensures forall i, j :: 0 <= i < j < |d| ==> d[i] != d[j]
  {
    if |xs| == 0 then []
    else
      var d := Distinct(xs[..|xs| - 1]);
      var x := xs[|xs| - 1];
      assert xs == xs[..|xs| - 1] + [x];
      if x in d then d else d + [x]
  }

  /** The catalog's categories, each once, in catalog order. */
  function Categories(eq: seq<EquipmentDef>): seq<string> {
    Distinct(CategoryColumn(eq))
  }

  /** `AVAILABLE_EQUIPMENT.map(e => e.category)`. */
  function CategoryColumn(eq: seq<EquipmentDef>): (cs: seq<string>)
    ensures |cs| == |eq| && forall i :: 0 <= i < |eq| ==> cs[i] == eq[i].category
  {
    seq(|eq|, i requires 0 <= i < |eq| => eq[i].category)
  }

  /** The resolver as written: the entry whose label is the name, else the
      first entry whose model or maker occurs in the name, else the first
      category that occurs in the name, else nothing. */
  function Resolve(eq: seq<EquipmentDef>, name: string): Option<string> {
    match FindFirst(eq, e => Matches(ByLabel, name, e))
    case Some(i) => Some(eq[i].category)
    case None =>
      match FindFirst(eq, e => Matches(ByPart, name, e))
      case Some(i) => Some(eq[i].category)
      case None =>
        var cats := Categories(eq);
        match FindFirst(cats, c => Includes(name, c))
        case Some(i) => Some(cats[i])
        case None => None
  }

  /** Entry `k` is the first entry of `eq` that `name` matches at `step`. */
  ghost predicate FirstAt(eq: seq<EquipmentDef>, name: string, step: Step, k: int) {
    && 0 <= k < |eq|
    && Matches(step, name, eq[k])
    && forall j :: 0 <= j < k ==> !Matches(step, name, eq[j])
  }

  /** `name` matches no entry of `eq` at `step`. */
  ghost predicate NoneAt(eq: seq<EquipmentDef>, name: string, step: Step) {
    forall j :: 0 <= j < |eq| ==> !Matches(step, name, eq[j])
  }

  /** Taking distinct elements does not change which value is found first. */
  lemma {:induction false} DistinctKeepsFirstMatch(xs: seq<string>, p: string -> bool)
    ensures FindFirst(Distinct(xs), p).Some? <==> FindFirst(xs, p).Some?
    ensures FindFirst(xs, p).Some? ==>
      Distinct(xs)[FindFirst(Distinct(xs), p).value] == xs[FindFirst(xs, p).value]
    decreases |xs|
  {
    if |xs| > 0 {
      var ys, x := xs[..|xs| - 1], xs[|xs| - 1];
      assert xs == ys + [x];
      var d := Distinct(ys);
      DistinctKeepsFirstMatch(ys, p);
      match FindFirst(ys, p)
      case Some(k) =>
        FindFirstAt(xs, p, k);
        var m := FindFirst(d, p).value;
        FindFirstAt(Distinct(xs), p, m);
      case None =>
        if p(x) {
          FindFirstAt(xs, p, |ys|);
          assert x !in ys;
          FindFirstAt(Distinct(xs), p, |d|);
        }
    }
  }

  /** The resolver follows the ordered first-match policy: the first entry
      matched by label wins; failing that, the first entry matched by model or
      maker; failing that, the first entry, in catalog order, whose category
      occurs in the name; and only when no step matches is the result absent. */
  lemma ResolveIsOrderedFirstMatch(eq: seq<EquipmentDef>, name: string)
    ensures forall k :: FirstAt(eq, name, ByLabel, k) ==> Resolve(eq, name) == Some(eq[k].category)
    ensures NoneAt(eq, name, ByLabel) ==>
      forall k :: FirstAt(eq, name, ByPart, k) ==> Resolve(eq, name) == Some(eq[k].category)
    ensures NoneAt(eq, name, ByLabel) && NoneAt(eq, name, ByPart) ==>
      forall k :: FirstAt(eq, name, ByCategory, k) ==> Resolve(eq, name) == Some(eq[k].category)
    ensures Resolve(eq, name).None? <==>
      NoneAt(eq, name, ByLabel) && NoneAt(eq, name, ByPart) && NoneAt(eq, name, ByCategory)
  {
    var cats := CategoryColumn(eq);
    var p := c => Includes(name, c);
    DistinctKeepsFirstMatch(cats, p);
    forall k | FirstAt(eq, name, ByCategory, k)
      ensures FindFirst(cats, p) == Some(k)
    {
      FindFirstAt(cats, p, k);
    }
    if NoneAt(eq, name, ByCategory) {
      assert FindFirst(cats, p).None?;
    }
  }

  /** A label includes its model, so a label match is also a model match. */
  lemma LabelMatchIsPartMatch(name: string, e: EquipmentDef)
    requires Matches(ByLabel, name, e)
    ensures Matches(ByPart, name, e)
  {
    IncludesSuffix(e.category + " - ", e.model);
  }

  /** Every category the resolver returns is a catalog category. */
  lemma ResolveGivesCatalogCategory(eq: seq<EquipmentDef>, name: string)
    ensures Resolve(eq, name).Some? ==>
      exists k :: 0 <= k < |eq| && Resolve(eq, name).value == eq[k].category
  {
    var r := Resolve(eq, name);
    if r.Some? && r.value in Categories(eq) {
      assert r.value in CategoryColumn(eq);
    }
  }

  /** When the labels of a catalog are pairwise distinct, an entry's own
      label resolves to that entry's category. */
  lemma ResolveOwnLabel(eq: seq<EquipmentDef>, k: nat)
    requires k < |eq|
    requires forall i, j :: 0 <= i < j < |eq| ==> Label(eq[i]) != Label(eq[j])
    ensures Resolve(eq, Label(eq[k])) == Some(eq[k].category)
  {
    FindFirstAt(eq, e => Matches(ByLabel, Label(eq[k]), e), k);
  }

  /** A label is never equal to the label of an entry with a longer
      category when that category has no dash. */
  lemma DashAfterCategory(a: EquipmentDef, b: EquipmentDef)
    requires '-' !in b.category
    requires |a.category| < |b.category|
    ensures Label(a) != Label(b)
  {
    var k := |a.category| + 1;
    assert Label(a)[k] == '-';
    if k < |b.category| {
      assert Label(b)[k] == b.category[k];
    } else {
      assert Label(b)[k] == ' ';
    }
  }

  /** Labels built from dash-free categories determine category and model. */
  lemma {:induction false} LabelInjective(a: EquipmentDef, b: EquipmentDef)
    requires '-' !in a.category && '-' !in b.category
    ensures Label(a) == Label(b) <==> a.category == b.category && a.model == b.model
  {
    var la, lb := Label(a), Label(b);
    if |a.category| < |b.category| {
      DashAfterCategory(a, b);
    } else if |b.category| < |a.category| {
      DashAfterCategory(b, a);
    } else if la == lb {
      assert a.category == la[..|a.category|] == lb[..|b.category|] == b.category;
      assert a.model == la[|a.category| + 3..] == lb[|b.category| + 3..] == b.model;
    }
  }
}

=== FILE: types.dfy ===
/** Records shared by the recalculation engine, mirroring `types.ts` and the
    catalog record of `constants.ts`. Money is in units of 10,000 KRW. */
module Types {

  /** An optional value, used for TypeScript's `T | undefined`. */
  datatype Option<+T> = None | Some(value: T) {
    /** The value if there is one, else `default`. */
    function GetOr(default: T): (r: T)
      ensures Some? ==> r == value
      ensures None? ==> r == default
    {
      match this
      case Some(v) => v
      case None => default
    }
  }

  /** The two values of `cost_type`: a monthly rental fee or a one-off purchase. */
  datatype CostType = Monthly | OneTime {
    function Flip(): (t: CostType)
      ensures t != this
    {
      if Monthly? then OneTime else Monthly
    }
  }

  /** One line of the plan (`EquipmentRecommendation`). */
  datatype Device = Device(
    name: string,
    costType: CostType,
    cost: real,          // unit price
    count: int,          // quantity
    monthlySaving: real,
    roiMonths: real,
    reason: Option<string>)

  /** The confirmed cost baseline (`CurrentCost`). */
  datatype CurrentCost = CurrentCost(
    monthlySales: real,
    monthlyFixedCost: real,
    employeeCountFT: real,
    employeeCostFT: real,
    employeeCountPT: real,
    employeeCostPT: real,
    monthlyLaborCost: real)

  /** The service layer overwrites the labour total with the sum of the two classes. */
  predicate LaborTotalConsistent(c: CurrentCost) {
    c.monthlyLaborCost == c.employeeCostFT + c.employeeCostPT
  }

  /** One catalog entry (`EquipmentDef`). */
  datatype EquipmentDef = EquipmentDef(
    category: string,
    maker: string,
    model: string,
    priceOneTime: real,
    priceRental: real)

  /** Employee class of a labour-saving rule: full-time or part-time. */
  datatype EmployeeClass = FT | PT

  /** Headcount fraction saved per deployed unit, and the class it is saved from. */
  datatype LaborRule = LaborRule(amount: real, kind: EmployeeClass)

  /** The static reference data the engine reads: the equipment list in
      catalog order and the per-category labour-saving rules. */
  datatype Catalog = Catalog(equipment: seq<EquipmentDef>, savings: map<string, LaborRule>)
}
